=== FILE: README.md ===
# Interval analysis of `PrinterArray` programs, modelled in Dafny

The analyzer checks one Java class for two properties. The first is that no
division divides by zero. The second is that every call `pa.sendJob(i)` on a
`PrinterArray pa` uses an index `i` within `[0, size - 1]`, where `size` is
the constant given to the `PrinterArray` constructor.

It works in two parts.

- **The analysis** (`Analysis.java`) is a forward, branch-sensitive data-flow
  analysis over Soot's Jimple code.
  - Its abstract values are numeric states over the integer locals and fields.
  - It has a transfer function for assignments (`handleDef`) and one for
    conditions (`handleIf`).
  - `flowThrough` writes the states to the fall-through and branch
    successors.
  - Merges join, and a loop head widens from its 6th merge on.
- **The checkers** (`Verifier.java`) run on the fixpoint.
  - They inspect every reachable unit: the divisors, the sizes of
    `PrinterArray` allocation sites, and the `sendJob` indices against the
    sites the receiver may point to.
  - The class verdict is printed as two lines.

The project is laid out as follows:

| file | module | contents |
|---|---|---|
| `wrappers.dfy` | `Wrappers` | `Option`, and `Res`, which is a result or the numeric library's exception. |
| `intervals.dfy` | `Intervals` | Intervals with infinite ends, inclusion, `Interval.cmp`, hull, widening and interval arithmetic. |
| `domain.dfy` | `NumDomain` | The numeric domain. It has states with a concretisation `Models`, and meet with a constraint, join, widening, assign, forget and bound queries. Each operation is proved sound against the concrete semantics. |
| `jimple.dfy` | `Jimple` | The Jimple types, values and statements that the analyzer distinguishes. |
| `transfer.dfy` | `Transfer` | `handleIf`, `handleDef` and what `flowThrough` hands to the successors, both as written and corrected. |
| `analysis.dfy` | `FlowAnalysis` | The `Analysis` object and the interval query `getInterval`. The object covers environment building, initial flows, the merge policy with its counters, and `flowThrough` writing the successor wrappers. |
| `verifier.dfy` | `Verifier` | `verifyDivisionByZero`, `verifyBounds` with the points-to visitor, and the class verdict. |

The numeric domain is an interval box: one interval per variable of the
environment, or bottom. It is sound for the meet, join, widening, assignment
and bound operations the analyzer uses.

Integers are mathematical integers. Java's truncating division is written
out as `Intervals.JavaDiv`.

## Model

| member | source | states |
|---|---|---|
| `Intervals.WithinIff` | src/ch/ethz/sae/Verifier.java:106 | The bound test used by `cmp` is exactly inclusion of the sets of values. |
| `Intervals.Cmp` | src/ch/ethz/sae/Verifier.java:106 | Over the sets of values: `cmp` gives 0 when they are equal, -1 when every value of the first is in the second and the second has one more, 1 for the converse, and 2 when each has a value the other lacks. |
| `Intervals.WidenItvProgress` | src/ch/ethz/sae/Analysis.java:511 | Widening one interval either leaves it unchanged or sends an end to infinity. It never empties a non-empty interval. |
| `NumDomain.IndexOf` | src/ch/ethz/sae/Analysis.java:386 | `env.hasVar(y)` holds exactly when the name is in the environment, and the index found holds that name. |
| `NumDomain.Top` | src/ch/ethz/sae/Analysis.java:480 | `new Abstract1(man, env)` admits every concrete state over the environment. |
| `NumDomain.MeetCons` | src/ch/ethz/sae/Analysis.java:216-263 | `meetCopy` with a constraint fails exactly when a variable is unknown. Otherwise it returns a well-formed state below the input. |
| `NumDomain.MeetConsSound` | src/ch/ethz/sae/Analysis.java:216-263 | `meetCopy` keeps every concrete state that satisfies the constraint. |
| `NumDomain.ItvOfSound` | src/ch/ethz/sae/Analysis.java:452-454 | The interval of an expression contains its concrete value. |
| `NumDomain.Join` | src/ch/ethz/sae/Analysis.java:509 | `joinCopy` is above both operands. |
| `NumDomain.Widen` | src/ch/ethz/sae/Analysis.java:511 | `widening` is above both operands. |
| `NumDomain.WidenStabilises` | src/ch/ethz/sae/Analysis.java:505-513 | Each widening step leaves the state unchanged or lowers a bounded rank, so repeated widening stabilises. |
| `NumDomain.Assign` | src/ch/ethz/sae/Analysis.java:377 | `assign` fails exactly when the target or a variable of the expression is unknown. It preserves well-formedness and bottom. |
| `NumDomain.AssignSound` | src/ch/ethz/sae/Analysis.java:377 | After `x := e`, the updated concrete state of every admitted state is admitted. |
| `NumDomain.Forget` | src/ch/ethz/sae/Analysis.java:463 | `forget` fails exactly for an unknown name. Otherwise it admits every value of the variable, is above the input and is bottom exactly when the input is. |
| `NumDomain.BoundOf` | src/ch/ethz/sae/Analysis.java:571 | `getBound` fails exactly for an unknown name. It is empty on bottom and contains the variable's value in every admitted state. |
| `Transfer.BranchConstraintsSplit` | src/ch/ethz/sae/Analysis.java:216-263 | For each comparator, the `ow` constraint holds exactly when the comparison holds, and the `ow_branchout` constraint exactly when it fails. |
| `Transfer.HandleIf` | src/ch/ethz/sae/Analysis.java:163-267 | `handleIf` as written. It crashes exactly when a side is neither a constant nor a local. The library raises exactly when a numeric side names an untracked variable. Otherwise both outputs are well formed and below the input. |
| `Transfer.HandleIfPrinterArray` | src/ch/ethz/sae/Analysis.java:175-196 | A comparison with a `PrinterArray` operand passes the input to both outputs. |
| `Transfer.HandleIfSound` | src/ch/ethz/sae/Analysis.java:163-267 | On a numeric comparison, `ow` keeps every state where the comparison holds and `ow_branchout` every state where it fails. |
| `Transfer.EdgesSwappedAsWritten` | src/ch/ethz/sae/Analysis.java:232-239 | With i0 = 0 and `if i0 >= 0 goto L`, the branch target receives bottom although execution reaches L with i0 = 0. |
| `Transfer.HandleIfIntended` | src/ch/ethz/sae/Analysis.java:216-263 | The branch target keeps every state where the comparison holds, and the fall-through every state where it fails. |
| `Transfer.HandleDef` | src/ch/ethz/sae/Analysis.java:362-466 | `handleDef` as written. It crashes exactly when an arithmetic operand that is evaluated is neither a constant nor a local. A tracked target with a right-hand side that is not arithmetic never makes the library raise. Every state it produces is well formed, and it is bottom exactly when the input is. |
| `Transfer.HandleDefConst` | src/ch/ethz/sae/Analysis.java:373-378 | After `x = c`, the bound of x is [c, c] and no other variable changes. |
| `Transfer.HandleDefCopy` | src/ch/ethz/sae/Analysis.java:379-390 | After `x = y` with y tracked, x has y's bound, no other variable changes, and every copied concrete state is admitted. |
| `Transfer.HandleDefBinop` | src/ch/ethz/sae/Analysis.java:398-455 | After `x = a op b`, x has the interval of the expression over the incoming bounds, no other variable changes, and every concrete result of the operation is admitted. |
| `Transfer.IncrementExample` | src/ch/ethz/sae/Analysis.java:398-454 | i0 in [0, 10] becomes i0 in [1, 11] after `i0 = i0 + 1`. |
| `Transfer.HandleDefUnchanged` | src/ch/ethz/sae/Analysis.java:379-449 | The following leave the state unchanged: a non-local target, division by the literal 0, a `PrinterArray` or untracked copy, an unsupported operator, and a comparison. |
| `Transfer.HandleDefOther` | src/ch/ethz/sae/Analysis.java:458-464 | Any other right-hand side forgets a tracked target and leaves an untracked one alone. |
| `Transfer.DivByZeroKeepsStateAsWritten` | src/ch/ethz/sae/Analysis.java:433-442 | As written, `x = a / 0` passes on the reachable incoming state, not bottom. |
| `Transfer.HandleDefIntended` | src/ch/ethz/sae/Analysis.java:433-442 | Corrected: `x = a / 0` yields bottom and admits no state. Otherwise it agrees with `handleDef` and stays well formed. |
| `Transfer.FlowOutPassThrough` | src/ch/ethz/sae/Analysis.java:339-355 | A statement that is neither a definition nor a comparison passes its input to both successor lists. |
| `Transfer.FlowOutIf` | src/ch/ethz/sae/Analysis.java:315-336 | A comparison sends `ow` to the fall-through list and `ow_branchout` to the branch list, and both are below the input. |
| `Transfer.FlowOutSkipped` | src/ch/ethz/sae/Analysis.java:298-310 | An assignment to an array element, an instance field, a double, an array or a non-resource reference writes no successor. |
| `Transfer.ThisIdentitySkipped` | src/ch/ethz/sae/Analysis.java:298-310 | The identity statement `r0 := @this: C` of a class C other than `PrinterArray` writes no successor. |
| `Transfer.FlowOut` | src/ch/ethz/sae/Analysis.java:272-360 | The successor states of `flowThrough` as written. The fall-through and branch lists are written together or not at all, and every state written is well formed. A definition that is not skipped sends `handleDef`'s result to the fall-through list and the unchanged input to the branch list. If the library raises, neither list is written, and the statement crashes exactly when `handleDef` does. |
| `Transfer.FlowOutIntended` | src/ch/ethz/sae/Analysis.java:285-336 | Corrected: a skipped target passes its input on, and the branch target and fall-through receive the states where the condition holds and fails, respectively. Any other definition sends the corrected `handleDef` result to the fall-through list and the input to the branch list, or writes neither if the library raises. A statement that is neither a definition nor a comparison passes its input to both. |
| `Transfer.DivByZeroFlowsBottom` | src/ch/ethz/sae/Analysis.java:433-442 | Corrected: after `x = a / 0`, the fall-through successors receive bottom and the branch successors the input. |
| `FlowAnalysis.IntNamesMembers` | src/ch/ethz/sae/Analysis.java:63-109 | A name is recorded exactly when some declaration of that name has an integer type. There are at most as many names as declarations. |
| `FlowAnalysis.IntNamesArray` | src/ch/ethz/sae/Analysis.java:63-84 | The count-then-fill loops produce a fresh array holding the integer names in declaration order. |
| `FlowAnalysis.Analysis.RecordIntLocalVars` | src/ch/ethz/sae/Analysis.java:63-84 | `local_ints` holds the integer locals in chain order. |
| `FlowAnalysis.Analysis.RecordIntClassVars` | src/ch/ethz/sae/Analysis.java:86-109 | `class_ints` holds the integer fields in declaration order. |
| `FlowAnalysis.Analysis.BuildEnvironment` | src/ch/ethz/sae/Analysis.java:111-129 | The environment is the integer locals followed by the integer fields. |
| `FlowAnalysis.Analysis.constructor` | src/ch/ethz/sae/Analysis.java:137-152 | The constructor builds the environment and gives every loop head and back jump a counter at 0. |
| `FlowAnalysis.Analysis.EntryInitialFlow` | src/ch/ethz/sae/Analysis.java:475-487 | The entry flow is top over the environment. |
| `FlowAnalysis.Analysis.NewInitialFlow` | src/ch/ethz/sae/Analysis.java:540-550 | Every other flow starts at bottom. |
| `FlowAnalysis.MergePolicy` | src/ch/ethz/sae/Analysis.java:498-521 | A loop head's counter goes up by one per merge. The merge joins below the threshold 6 and widens from then on, and is above both inputs. |
| `FlowAnalysis.MergeAdmitsBoth` | src/ch/ethz/sae/Analysis.java:498-521 | Every concrete state that either incoming value admits is admitted by the merged value. |
| `FlowAnalysis.MergeRunSwitchesOnce` | src/ch/ethz/sae/Analysis.java:498-521 | From counter 0, after n merges into a head the counter is n. Merges 1 to 5 join and every later merge widens. |
| `FlowAnalysis.Analysis.Merge` | src/ch/ethz/sae/Analysis.java:498-521 | `merge(succNode, x, y, u)` updates the counter and writes the policy's state to `u`. The state is well formed and above both inputs. |
| `FlowAnalysis.Analysis.MergePlain` | src/ch/ethz/sae/Analysis.java:524-537 | The three-argument `merge` writes the join of the two sources to the target. |
| `FlowAnalysis.Analysis.FlowThrough` | src/ch/ethz/sae/Analysis.java:272-360 | Each fall-through and branch wrapper gets the corrected output `Transfer.FlowOutIntended` and the statement, or is left untouched when there is no output (see ## Findings). It reports a crash exactly when the transfer aborts. The as-written outputs are `Transfer.FlowOut`. |
| `FlowAnalysis.IsIntValue` | src/ch/ethz/sae/Analysis.java:553-555 | An int, short or byte value has a type the environment tracks. Every constant is one. A char or boolean value is tracked but is not one. |
| `FlowAnalysis.GetInterval` | src/ch/ethz/sae/Analysis.java:557-581 | Returns top for non-int values and [c, c] for a constant. For a tracked local it returns a bound containing every admitted value. It returns null exactly for an untracked int local. |
| `Verifier.DivisorUnsafeIff` | src/ch/ethz/sae/Verifier.java:104-106 | The comparison with [0, 0] flags exactly the bounds that contain 0 or are empty. |
| `Verifier.DivisorExamples` | src/ch/ethz/sae/Verifier.java:105-106 | [0, 0] and [-2, 3] are flagged, while [1, 10] and [-5, -1] are not. |
| `Verifier.VerifyDivisionByZero` | src/ch/ethz/sae/Verifier.java:83-126 | Returns true exactly when no reachable unit divides by a flagged local or by the constant 0. |
| `Verifier.DivSafeSound` | src/ch/ethz/sae/Verifier.java:83-126 | When a method is declared safe, no admitted state before a division has a zero divisor. |
| `Verifier.DivAlarmRealisable` | src/ch/ethz/sae/Verifier.java:101-106 | An alarm on a tracked local comes with an admitted concrete state whose divisor is 0. |
| `Verifier.SiteCoversIff` | src/ch/ethz/sae/Verifier.java:238 | The visitor's test holds exactly when every possible index value lies in the site. |
| `Verifier.BoundsExamples` | src/ch/ethz/sae/Verifier.java:238 | With size 5, index 4 and [1, 3] are safe, while index 5 and [0, 5] are not. Size 0 admits no index. |
| `Verifier.VisitAll` | src/ch/ethz/sae/Verifier.java:186-189 | It aborts exactly on a node outside the site list or on a null index. It says safe exactly when the index lies within every visited site. |
| `Verifier.SitesAreRanges` | src/ch/ethz/sae/Verifier.java:150-165 | Site i is [0, c - 1], where c is the literal size of the i-th reachable constant-size `PrinterArray` constructor before the unit, in unit order. Every such constructor has a site. |
| `Verifier.BoundsRunIff` | src/ch/ethz/sae/Verifier.java:130-196 | `verifyBounds` says safe exactly when every unit lets the run go on. |
| `Verifier.MissingReceiverAborts` | src/ch/ethz/sae/Verifier.java:169-177 | The first reachable virtual call whose receiver has no points-to set aborts the check, because the cast comes before the method-name test. |
| `Verifier.BoundsSafeSound` | src/ch/ethz/sae/Verifier.java:130-196 | When a method is declared safe, consider any array the receiver of a `sendJob` on a tracked local may point to. Its site number names a reachable constant-size constructor earlier in the method, and each admitted argument value lies in [0, c) for that constructor's size c. |
| `Verifier.MyP2SetVisitor.Visit` | src/ch/ethz/sae/Verifier.java:233-241 | `visit` aborts on a node outside the site list or on a null index. Otherwise it clears the verdict unless the site covers the index. |
| `Verifier.Verifier.VisitNodes` | src/ch/ethz/sae/Verifier.java:186-189 | `pts.forall(visitor)` visits every node and computes `VisitAll`. |
| `Verifier.Verifier.VerifyBounds` | src/ch/ethz/sae/Verifier.java:130-196 | Resets `paInterval`. The result and the final site list are those of the unit-by-unit run. |
| `Verifier.ClassVerdict` | src/ch/ethz/sae/Verifier.java:44-81 | There is no report exactly when some method's bounds check aborts. Otherwise the two lines are NO_/MAY_DIV_ZERO and NO_/MAY_OUT_OF_BOUNDS, according to whether every method passes. |

## Left out

- Polka's polyhedra are replaced by one interval per variable. Relational facts between variables are not modelled. A disequality constraint refines nothing, as in Polka.
- The Soot front end is not modelled: class loading, body retrieval, unit graphs and loop discovery. Loops arrive as (head, back jump) pairs, and a method arrives as its units with the fixpoint states before them.
- Soot's fixpoint driver (`doAnalysis`) is not modelled. The checkers take the flow before each unit as an input.
- The Spark points-to analysis (`doPointsToAnalysis`) is an input: a map from local names to allocation-site numbers.
- Printing is not modelled: the diagnostic lines, `printStackTrace`, and `Verifier.printTconsMatrix`. The class verdict is returned as its two lines.
- `Verifier.main`'s argument check and exit code are not modelled.
- FlowAnalysis.Analysis.BuildEnvironment: leaves out the real variable "x" that Analysis.java:587 adds to every environment at line 128. When the method has an integer local, or the class an integer field, named `x`, the name is declared both as an integer and as a real. The numeric library then refuses to build the `Environment`, the `Analysis` constructor throws, and the class gets no verdict. The model builds the integer environment and carries on. Otherwise the real variable changes nothing, because no statement reads or writes it.
- `AWrapper`, `AWrapper.java` and its `copy` are not part of this model. `FlowAnalysis.AWrapper` holds only the state and the statement.
- The environment assumes distinct variable names. Apron rejects duplicate names when it builds an `Environment`.
- NumDomain.Assign: does not model Java's 32-bit wrap-around, because integers are unbounded.
- Intervals.MulItv and Intervals.DivItv are exact only on point intervals and give top otherwise, which is coarser than the library.
- Intervals.DivItv: divides point operands with Java's truncating `int` division. The library evaluates the division tree of `handleDef` (Analysis.java:452) with its own rounding, so its bound after `x = a / b` can differ from the model's.
- FlowAnalysis.Analysis.FlowThrough: writes the corrected outputs, not those of Analysis.java:285-336. After `this.f = 0;` the successors get the input rather than nothing. After `if i0 >= 0 goto L` the branch target gets the condition-true state rather than the false one. After `x = a / 0` the fall-through successors get bottom rather than the unchanged state (`Transfer.DivByZeroFlowsBottom`). The as-written behaviour is `Transfer.FlowOut` with the lemmas about it.
- A copy `x = y` with x tracked and y outside the environment keeps x's old interval (Analysis.java:391-395), and `Transfer.HandleDefUnchanged` models it that way. It is not listed as a finding because every integer local is in the environment, so no well-typed Jimple copy into a tracked variable reaches that branch.
- FlowAnalysis.Analysis.Merge: an exception inside the library during join or widening is not modelled. In the code it would write null.
- Transfer.HandleDef: does not model the in-place update of `o`, because it works on values. Nothing else holds `o`.
- The model assumes that an unknown variable in an expression raises the numeric library's checked exception. That exception is caught in `flowThrough`, `getInterval` and `verifyDivisionByZero`.
- The points-to oracle is a map. A receiver missing from it stands for the empty points-to set object, and the cast at Verifier.java:175-177 fails on it for every virtual call. A receiver that is present always yields a `DoublePointsToSet`, possibly empty.
- A `sendJob` base that is not a local is not modelled.

## Findings

| source | as written | input that shows it | evidently intended | confidence | as-written member | corrected member |
|---|---|---|---|---|---|---|
| src/ch/ethz/sae/Analysis.java:216-263 | `ow` gets the constraint under which the comparison holds. `flowThrough` sends `ow` to `fallOut`, which holds the fall-through successors, but a Jimple `if` jumps when its condition holds. | i0 known to be 0 and `if i0 >= 0 goto L`: L receives the meet with 0 - i0 > 0, which is bottom, so code at L is treated as unreachable. | The branch target gets the state where the condition holds, and the fall-through the state where it fails. | medium, not executed | `Transfer.EdgesSwappedAsWritten` | `Transfer.HandleIfIntended` |
| src/ch/ethz/sae/Analysis.java:433-442 | On a division by the literal 0, the bottom state is assigned to the parameter `o` only, so the successors get the unchanged state. | `x = a / 0` with a reachable incoming state: everything the state admits flows on. | The state after the throwing division is bottom. | medium, not executed | `Transfer.DivByZeroKeepsStateAsWritten` | `Transfer.HandleDefIntended` |
| src/ch/ethz/sae/Analysis.java:298-310 | An assignment to an array element, an instance field, a double, an array or a non-resource reference returns before any successor is written. The successors keep their initial bottom. | The first unit of every instance method, `r0 := @this: C` with C not `PrinterArray` (`Transfer.ThisIdentitySkipped`): every later unit stays bottom, so neither check looks at the method. Likewise `this.f = 0;` followed by `z = 1 / 0;`: the division's unit is bottom, so the division-by-zero check skips it. | The statement has no numeric effect, so the input passes on unchanged. | high, not executed | `Transfer.FlowOutSkipped` | `Transfer.FlowOutIntended` |

=== FILE: analysis.dfy ===
/**
  The analysis object of the analyzer (`Analysis.java`): the environment it
  builds from the method's locals and the class's fields, the per-loop-head
  merge counters, the initial flows, the merge policy, `flowThrough` writing
  the successor wrappers, and the interval query used by the checkers.
 */
module FlowAnalysis {
  import opened Wrappers
  import opened Intervals
  import opened NumDomain
  import opened Jimple
  import opened Transfer

  /** Merges into a loop head after which widening replaces join. */
  const WIDENING_THRESHOLD: nat := 6

  // ---------------------------------------------------------------------------
  // Environment: integer locals in chain order, then integer fields
  // ---------------------------------------------------------------------------

  /** The names of the integer-typed declarations, in declaration order. */
  function IntNames(ds: seq<Decl>): seq<string> {
    if ds == [] then []
    else IntNames(ds[..|ds| - 1]) + (if IsIntegerType(ds[|ds| - 1].ty) then [ds[|ds| - 1].name] else [])
  }

  lemma {:induction false} IntNamesAppend(a: seq<Decl>, b: seq<Decl>)
    ensures IntNames(a + b) == IntNames(a) + IntNames(b)
    decreases |b|
  {
    if b == [] {
      assert a + b == a;
    } else {
      var b' := b[..|b| - 1];
      assert (a + b)[..|a + b| - 1] == a + b';
      IntNamesAppend(a, b');
    }
  }

  lemma IntNamesSnoc(ds: seq<Decl>, k: nat)
    requires k < |ds|
    ensures IntNames(ds[..k + 1]) == IntNames(ds[..k]) + (if IsIntegerType(ds[k].ty) then [ds[k].name] else [])
  {
    assert ds[..k + 1][..k] == ds[..k];
  }

  /** Exactly the names of integer-typed declarations appear, and there are at most |ds| of them. */
  lemma {:induction false} IntNamesMembers(ds: seq<Decl>, x: string)
    ensures x in IntNames(ds) <==> exists i :: 0 <= i < |ds| && ds[i].name == x && IsIntegerType(ds[i].ty)
    ensures |IntNames(ds)| <= |ds|
  {
    if ds != [] {
      var init := ds[..|ds| - 1];
      IntNamesMembers(init, x);
      if x in IntNames(init) {
        var i :| 0 <= i < |init| && init[i].name == x && IsIntegerType(init[i].ty);
        assert ds[i] == init[i];
      }
      if exists i :: 0 <= i < |ds| && ds[i].name == x && IsIntegerType(ds[i].ty) {
        var i :| 0 <= i < |ds| && ds[i].name == x && IsIntegerType(ds[i].ty);
        if i < |init| { assert init[i] == ds[i]; }
      }
    }
  }

  /** The count-then-fill loop shared by `recordIntLocalVars` and `recordIntClassVars`. */
  method IntNamesArray(ds: seq<Decl>) returns (a: array<string>)
    ensures fresh(a) && a[..] == IntNames(ds)
  {
    var count := 0;
    var k := 0;
    while k < |ds|
      invariant 0 <= k <= |ds|
      invariant count == |IntNames(ds[..k])|
    {
      IntNamesSnoc(ds, k);
      if IsIntegerType(ds[k].ty) {
        count := count + 1;
      }
      k := k + 1;
    }
    assert ds[..k] == ds;
    a := new string[count];
    var i := 0;
    k := 0;
    while k < |ds|
      invariant 0 <= k <= |ds|
      invariant i == |IntNames(ds[..k])| <= count
      invariant a[..i] == IntNames(ds[..k])
    {
      IntNamesSnoc(ds, k);
      IntNamesAppend(ds[..k + 1], ds[k + 1..]);
      assert ds[..k + 1] + ds[k + 1..] == ds;
      if IsIntegerType(ds[k].ty) {
        a[i] := ds[k].name;
        i := i + 1;
      }
      k := k + 1;
    }
    assert ds[..k] == ds;
  }

  // ---------------------------------------------------------------------------
  // Flow values
  // ---------------------------------------------------------------------------

  /** The mutable holder of one flow value (`AWrapper`): an abstract state and the
      statement that last wrote it. */
  class AWrapper {
    var state: AState
    var stmt: Option<Stmt>

    constructor (s: AState)
      ensures state == s && stmt == None
    {
      state := s;
      stmt := None;
    }
  }

  /** All wrappers are different objects. */
  predicate Distinct(ws: seq<AWrapper>) {
    forall i, j :: 0 <= i < j < |ws| ==> ws[i] != ws[j]
  }

  /** The wrapper after a write of `o` by statement `s` (no write when `o` is None). */
  predicate WrittenOrKept(w: AWrapper, o: Option<AState>, s: Stmt, oldState: AState, oldStmt: Option<Stmt>)
    reads w
  {
    if o.Some? then w.state == o.value && w.stmt == Some(s)
    else w.state == oldState && w.stmt == oldStmt
  }

  // ---------------------------------------------------------------------------
  // Merge policy
  // ---------------------------------------------------------------------------

  /** The merge of two incoming values at `succ` given the counters before it:
      the new counters and the merged state. */
  function MergePolicy(heads: map<nat, nat>, succ: nat, a: AState, b: AState): (r: (map<nat, nat>, AState))
    requires a.Box? && b.Box? ==> |a.itvs| == |b.itvs|
    ensures succ in heads ==> r.0 == heads[succ := heads[succ] + 1]
    ensures succ !in heads ==> r.0 == heads
    ensures Leq(a, r.1) && Leq(b, r.1)
    ensures succ !in heads || heads[succ] + 1 < WIDENING_THRESHOLD ==> r.1 == Join(a, b)
    ensures succ in heads && heads[succ] + 1 >= WIDENING_THRESHOLD ==> r.1 == Widen(a, b)
  {
    if succ in heads then
      var c := heads[succ] + 1;
      (heads[succ := c], if c < WIDENING_THRESHOLD then Join(a, b) else Widen(a, b))
    else (heads, Join(a, b))
  }

  /** Every concrete state either incoming value admits is admitted after the merge. */
  lemma MergeAdmitsBoth(heads: map<nat, nat>, succ: nat, a: AState, b: AState, sigma: seq<int>)
    requires a.Box? && b.Box? ==> |a.itvs| == |b.itvs|
    requires Models(a, sigma) || Models(b, sigma)
    ensures Models(MergePolicy(heads, succ, a, b).1, sigma)
  {
    var m := MergePolicy(heads, succ, a, b).1;
    if Models(a, sigma) {
      LeqSound(a, m, sigma);
    } else {
      LeqSound(b, m, sigma);
    }
  }

  /** A run of merges into one loop head: the counters afterwards and each result. */
  function MergeRun(heads: map<nat, nat>, h: nat, pairs: seq<(AState, AState)>): (map<nat, nat>, seq<AState>)
    requires forall k :: 0 <= k < |pairs| ==> (pairs[k].0.Box? && pairs[k].1.Box? ==> |pairs[k].0.itvs| == |pairs[k].1.itvs|)
    decreases |pairs|
  {
    if pairs == [] then (heads, [])
    else
      var step := MergePolicy(heads, h, pairs[0].0, pairs[0].1);
      var rest := MergeRun(step.0, h, pairs[1..]);
      (rest.0, [step.1] + rest.1)
  }

  /** Starting from its initial counter 0, a loop head's counter equals the number of
      merges into it; merges 1 to 5 join, and from the 6th merge on every merge widens. */
  lemma {:induction false} MergeRunSwitchesOnce(heads: map<nat, nat>, h: nat, pairs: seq<(AState, AState)>)
    requires h in heads
    requires forall k :: 0 <= k < |pairs| ==> (pairs[k].0.Box? && pairs[k].1.Box? ==> |pairs[k].0.itvs| == |pairs[k].1.itvs|)
    ensures var r := MergeRun(heads, h, pairs);
            && r.0 == heads[h := heads[h] + |pairs|]
            && |r.1| == |pairs|
            && forall k :: 0 <= k < |pairs| ==>
                 r.1[k] == if heads[h] + k + 1 < WIDENING_THRESHOLD then Join(pairs[k].0, pairs[k].1)
                           else Widen(pairs[k].0, pairs[k].1)
    decreases |pairs|
  {
    if pairs != [] {
      var step := MergePolicy(heads, h, pairs[0].0, pairs[0].1);
      MergeRunSwitchesOnce(step.0, h, pairs[1..]);
      var rest := MergeRun(step.0, h, pairs[1..]);
      assert step.0[h := step.0[h] + |pairs| - 1] == heads[h := heads[h] + |pairs|];
      forall k | 0 <= k < |pairs|
        ensures ([step.1] + rest.1)[k] == if heads[h] + k + 1 < WIDENING_THRESHOLD then Join(pairs[k].0, pairs[k].1)
                                          else Widen(pairs[k].0, pairs[k].1)
      {
        if k > 0 {
          assert pairs[1..][k - 1] == pairs[k];
        }
      }
    }
  }

  // ---------------------------------------------------------------------------
  // The analysis object
  // ---------------------------------------------------------------------------

  class Analysis {
    /** The method body's locals, in chain order. */
    const locals: seq<Decl>
    /** The analysed class's fields, in declaration order. */
    const fields: seq<Decl>
    var localInts: array<string>
    var classInts: array<string>
    var env: Env
    /** Merge counters of the loop heads and of the back-jump statements, by unit. */
    var loopHeads: map<nat, nat>
    var backJumps: map<nat, nat>

    /** The analysis of one method: builds the environment and gives every loop head
        and back jump a counter at 0. `loops` lists (head, back jump) unit pairs. */
    constructor (locals: seq<Decl>, fields: seq<Decl>, loops: seq<(nat, nat)>)
      ensures this.locals == locals && this.fields == fields
      ensures env == IntNames(locals) + IntNames(fields)
      ensures loopHeads.Keys == set l | l in loops :: l.0
      ensures backJumps.Keys == set l | l in loops :: l.1
      ensures forall h :: h in loopHeads ==> loopHeads[h] == 0
      ensures forall j :: j in backJumps ==> backJumps[j] == 0
    {
      this.locals := locals;
      this.fields := fields;
      localInts := new string[0];
      classInts := new string[0];
      env := [];
      loopHeads := map[];
      backJumps := map[];
      new;
      BuildEnvironment();
      var heads := set l | l in loops :: l.0;
      var jumps := set l | l in loops :: l.1;
      loopHeads := map h | h in heads :: 0;
      backJumps := map j | j in jumps :: 0;
    }

    method RecordIntLocalVars()
      modifies this
      ensures localInts[..] == IntNames(locals) && fresh(localInts)
      ensures classInts == old(classInts) && env == old(env)
      ensures loopHeads == old(loopHeads) && backJumps == old(backJumps)
    {
      localInts := IntNamesArray(locals);
    }

    method RecordIntClassVars()
      modifies this
      ensures classInts[..] == IntNames(fields) && fresh(classInts)
      ensures localInts == old(localInts) && env == old(env)
      ensures loopHeads == old(loopHeads) && backJumps == old(backJumps)
    {
      classInts := IntNamesArray(fields);
    }

    /** The environment: the integer locals followed by the integer fields. */
    method BuildEnvironment()
      modifies this
      ensures env == IntNames(locals) + IntNames(fields)
      ensures |env| == |IntNames(locals)| + |IntNames(fields)|
      ensures localInts[..] == IntNames(locals) && classInts[..] == IntNames(fields)
      ensures loopHeads == old(loopHeads) && backJumps == old(backJumps)
    {
      RecordIntLocalVars();
      RecordIntClassVars();
      var li, ci := localInts, classInts;
      var n := li.Length;
      var ints := new string[n + ci.Length];
      for i := 0 to n
        modifies ints
        invariant ints[..i] == li[..i]
      {
        ints[i] := li[i];
      }
      for i := 0 to ci.Length
        modifies ints
        invariant ints[..n] == li[..]
        invariant ints[n..n + i] == ci[..i]
      {
        ints[n + i] := ci[i];
      }
      assert ints[..] == ints[..n] + ints[n..n + ci.Length];
      env := ints[..];
    }

    /** `entryInitialFlow`: top over the environment. */
    method EntryInitialFlow() returns (a: AWrapper)
      ensures fresh(a) && a.state == Top(env) && a.stmt == None
    {
      a := new AWrapper(Top(env));
    }

    /** `newInitialFlow`: bottom, the value of every node not yet reached. */
    method NewInitialFlow() returns (a: AWrapper)
      ensures fresh(a) && a.state == Bottom && a.stmt == None
    {
      a := new AWrapper(Bottom);
    }

    /** `merge(succNode, x, y, u)`: at a loop head bump the counter, then join while
        it is below the threshold and widen from then on; elsewhere join. */
    method Merge(succNode: nat, x: AWrapper, y: AWrapper, u: AWrapper)
      requires WF(env, x.state) && WF(env, y.state)
      modifies this`loopHeads, u`state
      ensures succNode in old(loopHeads) ==> loopHeads == old(loopHeads)[succNode := old(loopHeads)[succNode] + 1]
      ensures succNode !in old(loopHeads) ==> loopHeads == old(loopHeads)
      ensures u.state == MergePolicy(old(loopHeads), succNode, old(x.state), old(y.state)).1
      ensures WF(env, u.state) && Leq(old(x.state), u.state) && Leq(old(y.state), u.state)
    {
      var a1 := x.state;
      var a2 := y.state;
      var a3;
      JoinWF(env, a1, a2);
      WidenWF(env, a1, a2);
      if succNode in loopHeads {
        var count := loopHeads[succNode] + 1;
        loopHeads := loopHeads[succNode := count];
        if count < WIDENING_THRESHOLD {
          a3 := Join(a1, a2);
        } else {
          a3 := Widen(a1, a2);
        }
      } else {
        a3 := Join(a1, a2);
      }
      u.state := a3;
    }

    /** `merge(src1, src2, trg)`: always join. */
    method MergePlain(src1: AWrapper, src2: AWrapper, trg: AWrapper)
      requires WF(env, src1.state) && WF(env, src2.state)
      modifies trg`state
      ensures trg.state == Join(old(src1.state), old(src2.state))
      ensures WF(env, trg.state)
    {
      JoinWF(env, src1.state, src2.state);
      trg.state := Join(src1.state, src2.state);
    }

    /** `flowThrough`: compute the outputs of `s` from `current` and write them to
        every fall-through wrapper and every branch wrapper; a missing output leaves
        those wrappers as they were. Returns true when the analysis aborts. The
        outputs are the corrected ones (`FlowOutIntended`); `FlowOut` records the
        transfer as written. */
    method FlowThrough(current: AWrapper, s: Stmt, fallOut: seq<AWrapper>, branchOuts: seq<AWrapper>)
      returns (crashed: bool)
      requires WF(env, current.state)
      requires Distinct(fallOut + branchOuts)
      modifies fallOut, branchOuts
      ensures crashed <==> FlowOutIntended(env, old(current.state), s).Crash?
      ensures forall i :: 0 <= i < |fallOut| ==>
                WrittenOrKept(fallOut[i], if crashed then None else FlowOutIntended(env, old(current.state), s).value.fall,
                              s, old(fallOut[i].state), old(fallOut[i].stmt))
      ensures forall i :: 0 <= i < |branchOuts| ==>
                WrittenOrKept(branchOuts[i], if crashed then None else FlowOutIntended(env, old(current.state), s).value.branch,
                              s, old(branchOuts[i].state), old(branchOuts[i].stmt))
    {
      var r := FlowOutIntended(env, current.state, s);
      if r.Crash? {
        return true;
      }
      assert r.Done?;
      var o, oBranch := r.value.fall, r.value.branch;
      for k := 0 to |fallOut|
        invariant forall i :: 0 <= i < k ==> WrittenOrKept(fallOut[i], o, s, old(fallOut[i].state), old(fallOut[i].stmt))
        invariant forall i :: k <= i < |fallOut| ==> fallOut[i].state == old(fallOut[i].state) && fallOut[i].stmt == old(fallOut[i].stmt)
        invariant forall i :: 0 <= i < |branchOuts| ==> branchOuts[i].state == old(branchOuts[i].state) && branchOuts[i].stmt == old(branchOuts[i].stmt)
      {
        assert forall i :: 0 <= i < |fallOut| && i != k ==> fallOut[i] != fallOut[k] by {
          forall i | 0 <= i < |fallOut| && i != k ensures fallOut[i] != fallOut[k] {
            assert (fallOut + branchOuts)[i] == fallOut[i] && (fallOut + branchOuts)[k] == fallOut[k];
          }
        }
        assert forall i :: 0 <= i < |branchOuts| ==> branchOuts[i] != fallOut[k] by {
          forall i | 0 <= i < |branchOuts| ensures branchOuts[i] != fallOut[k] {
            assert (fallOut + branchOuts)[|fallOut| + i] == branchOuts[i] && (fallOut + branchOuts)[k] == fallOut[k];
          }
        }
        if o.Some? {
          fallOut[k].state := o.value;
          fallOut[k].stmt := Some(s);
        }
      }
      for k := 0 to |branchOuts|
        invariant forall i :: 0 <= i < |fallOut| ==> WrittenOrKept(fallOut[i], o, s, old(fallOut[i].state), old(fallOut[i].stmt))
        invariant forall i :: 0 <= i < k ==> WrittenOrKept(branchOuts[i], oBranch, s, old(branchOuts[i].state), old(branchOuts[i].stmt))
        invariant forall i :: k <= i < |branchOuts| ==> branchOuts[i].state == old(branchOuts[i].state) && branchOuts[i].stmt == old(branchOuts[i].stmt)
      {
        assert forall i :: 0 <= i < |branchOuts| && i != k ==> branchOuts[i] != branchOuts[k] by {
          forall i | 0 <= i < |branchOuts| && i != k ensures branchOuts[i] != branchOuts[k] {
            assert (fallOut + branchOuts)[|fallOut| + i] == branchOuts[i] && (fallOut + branchOuts)[|fallOut| + k] == branchOuts[k];
          }
        }
        assert forall i :: 0 <= i < |fallOut| ==> fallOut[i] != branchOuts[k] by {
          forall i | 0 <= i < |fallOut| ensures fallOut[i] != branchOuts[k] {
            assert (fallOut + branchOuts)[i] == fallOut[i] && (fallOut + branchOuts)[|fallOut| + k] == branchOuts[k];
          }
        }
        if oBranch.Some? {
          branchOuts[k].state := oBranch.value;
          branchOuts[k].stmt := Some(s);
        }
      }
      return false;
    }
  }

  // ---------------------------------------------------------------------------
  // Interval query
  // ---------------------------------------------------------------------------

  /** `isIntValue`: the value's type prints as int, short or byte. Such a value has
      a type the environment tracks, but a tracked char or boolean is not one, so
      `getInterval` gives top for it. */
  predicate IsIntValue(v: Value)
    ensures IsIntValue(v) ==> IsIntegerType(TypeOf(v))
    ensures v.IntConst? ==> IsIntValue(v)
    ensures TypeOf(v).CharT? || TypeOf(v).BooleanT? ==> !IsIntValue(v)
  {
    var t := TypeOf(v);
    t.IntT? || t.ShortT? || t.ByteT?
  }

  /** `getInterval`: top for a non-int value, [v, v] for a constant, the domain's
      bound for a local (None where the library raises and the result is null),
      top for anything else. */
  function GetInterval(env: Env, state: AState, v: Value): (r: Option<Itv>)
    requires WF(env, state)
    ensures !IsIntValue(v) ==> r == Some(TopItv)
    ensures v.IntConst? ==> r == Some(Point(v.v))
    ensures r.None? <==> IsIntValue(v) && v.Local? && v.name !in env
    ensures IsIntValue(v) && v.Local? && v.name in env ==>
              r.Some? && forall sigma :: Models(state, sigma) ==> In(sigma[IndexOf(env, v.name).value], r.value)
    ensures IsIntValue(v) && !v.IntConst? && !v.Local? ==> r == Some(TopItv)
  {
    if !IsIntValue(v) then Some(TopItv)
    else match v
      case IntConst(c) => Some(Point(c))
      case Local(x, _) => (match BoundOf(env, state, x) case Ok(i) => Some(i) case Fault => None)
      case _ => Some(TopItv)
  }
}

=== FILE: domain.dfy ===
/**
  The numeric abstract domain that the analysis runs on. The analyzer uses
  the Polka polyhedra domain of the Apron library; this module stands in for
  it with one interval per environment variable plus a bottom element, and
  gives each operation the analyzer calls (top, bottom, meet with a
  constraint, join, widening, assign, forget, bound) a contract against the
  concretisation `Models`.

  A concrete state is a `seq<int>` holding one value per environment
  variable, in environment order. An operation that names a variable outside
  the environment yields `Fault`, the library's exception.
 */
module NumDomain {
  import opened Wrappers
  import opened Intervals

  /** An Apron environment: the ordered names of the tracked integer variables. */
  type Env = seq<string>

  /** Position of a name in the environment (`Environment.hasVar` when `Some`). */
  function IndexOf(env: Env, x: string): (r: Option<nat>)
    ensures r.Some? ==> r.value < |env| && env[r.value] == x
    ensures r.None? <==> x !in env
  {
    if |env| == 0 then None
    else if env[0] == x then Some(0)
    else match IndexOf(env[1..], x)
      case None => None
      case Some(k) => Some(k + 1)
  }

  // ---------------------------------------------------------------------------
  // Expressions and constraints (Apron's Texpr1 trees and Tcons1 constraints)
  // ---------------------------------------------------------------------------

  datatype ArithOp = Add | Sub | Mul | Div

  /** An expression tree: constant node, variable node or binary node. */
  datatype Texpr = Cst(c: int) | Var(name: string) | Bin(op: ArithOp, l: Texpr, r: Texpr)

  /** The constraint kinds used by the analyzer: e = 0, e != 0, e >= 0, e > 0. */
  datatype ConsKind = EQ | DISEQ | SUPEQ | SUP

  /** A leaf of a comparison: a constant or a variable. */
  datatype Atom = ACst(c: int) | AVar(name: string)

  /** The constraint `(l - r) kind 0`, built by the analyzer from a difference tree. */
  datatype Tcons = Tcons(kind: ConsKind, l: Atom, r: Atom)

  function AtomExpr(a: Atom): Texpr {
    match a
    case ACst(c) => Cst(c)
    case AVar(x) => Var(x)
  }

  /** Every variable of `e` is in the environment. */
  predicate Known(env: Env, e: Texpr) {
    match e
    case Cst(_) => true
    case Var(x) => x in env
    case Bin(_, l, r) => Known(env, l) && Known(env, r)
  }

  predicate AtomKnown(env: Env, a: Atom) { a.AVar? ==> a.name in env }

  /** Concrete value of `e` in `sigma`; None for an unknown variable or a division by zero. */
  function Eval(env: Env, sigma: seq<int>, e: Texpr): Option<int>
    requires |sigma| == |env|
  {
    match e
    case Cst(c) => Some(c)
    case Var(x) => (match IndexOf(env, x) case Some(k) => Some(sigma[k]) case None => None)
    case Bin(op, l, r) =>
      match (Eval(env, sigma, l), Eval(env, sigma, r))
      case (Some(a), Some(b)) =>
        (match op
         case Add => Some(a + b)
         case Sub => Some(a - b)
         case Mul => Some(a * b)
         case Div => if b == 0 then None else Some(JavaDiv(a, b)))
      case _ => None
  }

  predicate Holds(kind: ConsKind, d: int) {
    match kind
    case EQ => d == 0
    case DISEQ => d != 0
    case SUPEQ => d >= 0
    case SUP => d > 0
  }

  /** `sigma` satisfies the constraint. */
  predicate Sat(env: Env, sigma: seq<int>, c: Tcons)
    requires |sigma| == |env|
  {
    match (Eval(env, sigma, AtomExpr(c.l)), Eval(env, sigma, AtomExpr(c.r)))
    case (Some(a), Some(b)) => Holds(c.kind, a - b)
    case _ => false
  }

  // ---------------------------------------------------------------------------
  // Abstract states and their meaning
  // ---------------------------------------------------------------------------

  /** An abstract state: unreachable, or one interval per environment variable. */
  datatype AState = Bottom | Box(itvs: seq<Itv>)

  /** A well-formed state over `env`: bottom, or a non-empty interval for each variable. */
  predicate WF(env: Env, s: AState) {
    s.Bottom? || (|s.itvs| == |env| && forall i :: 0 <= i < |s.itvs| ==> !Empty(s.itvs[i]))
  }

  /** Concretisation: `sigma` is one of the concrete states `s` represents. */
  predicate Models(s: AState, sigma: seq<int>) {
    s.Box? && |sigma| == |s.itvs| && forall i :: 0 <= i < |sigma| ==> In(sigma[i], s.itvs[i])
  }

  /** The lattice order, decided interval by interval. */
  predicate Leq(a: AState, b: AState) {
    a.Bottom? || (b.Box? && |a.itvs| == |b.itvs| &&
                  forall i :: 0 <= i < |a.itvs| ==> Within(a.itvs[i], b.itvs[i]))
  }

  /** The order is inclusion of concretisations. */
  lemma {:induction false} LeqSound(a: AState, b: AState, sigma: seq<int>)
    requires Leq(a, b) && Models(a, sigma)
    ensures Models(b, sigma)
  {
    forall i | 0 <= i < |sigma| ensures In(sigma[i], b.itvs[i]) {
      WithinIff(a.itvs[i], b.itvs[i]);
    }
  }

  /** `Abstract1(man, env)`: no constraint on any variable. */
  function Top(env: Env): (r: AState)
    ensures WF(env, r)
    ensures forall sigma :: |sigma| == |env| ==> Models(r, sigma)
  {
    Box(seq(|env|, _ => TopItv))
  }

  /** A box with an empty interval is bottom. */
  function Normalize(b: seq<Itv>): (r: AState)
    ensures r.Box? ==> r.itvs == b && forall i :: 0 <= i < |b| ==> !Empty(b[i])
    ensures forall sigma :: Models(r, sigma) <==> Models(Box(b), sigma)
  {
    if exists i :: 0 <= i < |b| && Empty(b[i]) then
      var i :| 0 <= i < |b| && Empty(b[i]);
      EmptyMeansNoValue(b[i]);
      Bottom
    else Box(b)
  }

  // ---------------------------------------------------------------------------
  // Interval evaluation of expressions
  // ---------------------------------------------------------------------------

  /** The interval of `e` over the box `b`; None when a variable is unknown. */
  function ItvOf(env: Env, b: seq<Itv>, e: Texpr): (r: Option<Itv>)
    requires |b| == |env|
    ensures r.Some? <==> Known(env, e)
    ensures r.Some? && (forall i :: 0 <= i < |b| ==> !Empty(b[i])) ==> !Empty(r.value)
  {
    match e
    case Cst(c) => Some(Point(c))
    case Var(x) => (match IndexOf(env, x) case Some(k) => Some(b[k]) case None => None)
    case Bin(op, l, r) =>
      match (ItvOf(env, b, l), ItvOf(env, b, r))
      case (Some(x), Some(y)) =>
        Some(match op
             case Add => AddItv(x, y)
             case Sub => SubItv(x, y)
             case Mul => MulItv(x, y)
             case Div => DivItv(x, y))
      case _ => None
  }

  /** Interval evaluation over-approximates concrete evaluation. */
  lemma {:induction false} ItvOfSound(env: Env, b: seq<Itv>, e: Texpr, sigma: seq<int>)
    requires |b| == |env| && Models(Box(b), sigma)
    requires Eval(env, sigma, e).Some?
    ensures ItvOf(env, b, e).Some? && In(Eval(env, sigma, e).value, ItvOf(env, b, e).value)
  {
    match e
    case Cst(_) =>
    case Var(_) =>
    case Bin(op, l, r) =>
      ItvOfSound(env, b, l, sigma);
      ItvOfSound(env, b, r, sigma);
  }

  // ---------------------------------------------------------------------------
  // Meet with a constraint (Abstract1.meetCopy with a Tcons1)
  // ---------------------------------------------------------------------------

  function Succ(b: Bound): Bound { if b.Fin? then Fin(b.n + 1) else b }
  function Pred(b: Bound): Bound { if b.Fin? then Fin(b.n - 1) else b }

  /** Narrow the intervals L of l and R of r under `(l - r) kind 0`. */
  function Refine(kind: ConsKind, L: Itv, R: Itv): (r: (Itv, Itv))
    ensures Within(r.0, L) && Within(r.1, R)
    ensures forall x, y :: In(x, L) && In(y, R) && Holds(kind, x - y) ==> In(x, r.0) && In(y, r.1)
  {
    match kind
    case SUPEQ => (Itv(MaxB(L.lo, R.lo), L.hi), Itv(R.lo, MinB(R.hi, L.hi)))
    case SUP => (Itv(MaxB(L.lo, Succ(R.lo)), L.hi), Itv(R.lo, MinB(R.hi, Pred(L.hi))))
    case EQ => (Itv(MaxB(L.lo, R.lo), MinB(L.hi, R.hi)), Itv(MaxB(L.lo, R.lo), MinB(L.hi, R.hi)))
    case DISEQ => (L, R)   // Polka does not refine with a disequality
  }

  /** Store `i` as the interval of the atom when it is a variable. */
  function WriteAtom(env: Env, b: seq<Itv>, a: Atom, i: Itv): (r: seq<Itv>)
    requires |b| == |env| && AtomKnown(env, a)
    ensures |r| == |b|
  {
    match a
    case ACst(_) => b
    case AVar(x) => b[IndexOf(env, x).value := i]
  }

  function AtomItv(env: Env, b: seq<Itv>, a: Atom): Itv
    requires |b| == |env| && AtomKnown(env, a)
  {
    ItvOf(env, b, AtomExpr(a)).value
  }

  /** `in.meetCopy(man, c)`: the states of `s` that satisfy `c`. */
  function MeetCons(env: Env, s: AState, c: Tcons): (r: Res<AState>)
    requires WF(env, s)
    ensures r.Ok? <==> AtomKnown(env, c.l) && AtomKnown(env, c.r)
    ensures r.Ok? ==> WF(env, r.value) && Leq(r.value, s)
  {
    if !AtomKnown(env, c.l) || !AtomKnown(env, c.r) then Fault
    else if s.Bottom? then Ok(Bottom)
    else
      var L := AtomItv(env, s.itvs, c.l);
      var R := AtomItv(env, s.itvs, c.r);
      var nr := Refine(c.kind, L, R);
      var b1 := WriteAtom(env, s.itvs, c.l, nr.0);
      var b2 := WriteAtom(env, b1, c.r, nr.1);
      assert forall i :: 0 <= i < |b2| ==> Within(b2[i], s.itvs[i]);
      Ok(Normalize(b2))
  }

  /** Meeting keeps every concrete state that satisfies the constraint. */
  lemma {:induction false} MeetConsSound(env: Env, s: AState, c: Tcons, sigma: seq<int>)
    requires WF(env, s) && Models(s, sigma) && Sat(env, sigma, c)
    ensures MeetCons(env, s, c).Ok? && Models(MeetCons(env, s, c).value, sigma)
  {
    var L := AtomItv(env, s.itvs, c.l);
    var R := AtomItv(env, s.itvs, c.r);
    var x := Eval(env, sigma, AtomExpr(c.l)).value;
    var y := Eval(env, sigma, AtomExpr(c.r)).value;
    ItvOfSound(env, s.itvs, AtomExpr(c.l), sigma);
    ItvOfSound(env, s.itvs, AtomExpr(c.r), sigma);
    var nr := Refine(c.kind, L, R);
    assert In(x, nr.0) && In(y, nr.1);
    var b1 := WriteAtom(env, s.itvs, c.l, nr.0);
    var b2 := WriteAtom(env, b1, c.r, nr.1);
    assert Models(Box(b1), sigma);
    assert Models(Box(b2), sigma);
  }

  // ---------------------------------------------------------------------------
  // Join and widening
  // ---------------------------------------------------------------------------

  /** `joinCopy`: the least box above both states. */
  function Join(a: AState, b: AState): (r: AState)
    requires a.Box? && b.Box? ==> |a.itvs| == |b.itvs|
    ensures Leq(a, r) && Leq(b, r)
  {
    if a.Bottom? then b
    else if b.Bottom? then a
    else Box(seq(|a.itvs|, i requires 0 <= i < |a.itvs| => Hull(a.itvs[i], b.itvs[i])))
  }

  lemma JoinWF(env: Env, a: AState, b: AState)
    requires WF(env, a) && WF(env, b)
    ensures WF(env, Join(a, b))
  {
  }

  /** `widening`: interval by interval, an end of `a` that `b` exceeds goes to infinity. */
  function Widen(a: AState, b: AState): (r: AState)
    requires a.Box? && b.Box? ==> |a.itvs| == |b.itvs|
    ensures Leq(a, r) && Leq(b, r)
  {
    if a.Bottom? then b
    else if b.Bottom? then a
    else
      var w := Box(seq(|a.itvs|, i requires 0 <= i < |a.itvs| => WidenItv(a.itvs[i], b.itvs[i])));
      assert forall i :: 0 <= i < |a.itvs| ==> Within(a.itvs[i], w.itvs[i]) && Within(b.itvs[i], w.itvs[i]) by {
        forall i | 0 <= i < |a.itvs| { WidenItvUpper(a.itvs[i], b.itvs[i]); }
      }
      w
  }

  lemma WidenWF(env: Env, a: AState, b: AState)
    requires WF(env, a) && WF(env, b)
    ensures WF(env, Widen(a, b))
  {
    if a.Box? && b.Box? {
      forall i | 0 <= i < |a.itvs| { WidenItvProgress(a.itvs[i], b.itvs[i]); }
    }
  }

  function RankSum(b: seq<Itv>): nat {
    if b == [] then 0 else Rank(b[0]) + RankSum(b[1..])
  }

  /** A measure that widening never raises: bottom sits above every box. */
  function StateRank(env: Env, s: AState): nat {
    if s.Bottom? then 4 * |env| + 1 else RankSum(s.itvs)
  }

  lemma {:induction false} RankSumBound(b: seq<Itv>)
    ensures RankSum(b) <= 4 * |b|
  {
    if b != [] { RankSumBound(b[1..]); }
  }

  lemma {:induction false} RankSumWiden(a: seq<Itv>, b: seq<Itv>, w: seq<Itv>)
    requires |a| == |b| == |w|
    requires forall i :: 0 <= i < |a| ==> w[i] == WidenItv(a[i], b[i])
    ensures w == a || RankSum(w) < RankSum(a)
    ensures RankSum(w) <= RankSum(a)
  {
    if a != [] {
      WidenItvProgress(a[0], b[0]);
      RankSumWiden(a[1..], b[1..], w[1..]);
      if w[0] == a[0] && w[1..] == a[1..] {
        assert w == [w[0]] + w[1..] && a == [a[0]] + a[1..];
      }
    }
  }

  /** Termination of the widening policy: each widening step either leaves the
      state unchanged or strictly lowers a bounded measure, so a chain of
      widenings stabilises after at most 4 * |env| + 1 changes. */
  lemma {:induction false} WidenStabilises(env: Env, a: AState, b: AState)
    requires WF(env, a) && WF(env, b)
    ensures Widen(a, b) == a || StateRank(env, Widen(a, b)) < StateRank(env, a)
  {
    if a.Bottom? {
      if b.Box? { RankSumBound(b.itvs); }
    } else if b.Box? {
      var w := Widen(a, b);
      RankSumWiden(a.itvs, b.itvs, w.itvs);
      if w.itvs == a.itvs { assert w == a; }
    }
  }

  // ---------------------------------------------------------------------------
  // Assignment, forgetting and bounds
  // ---------------------------------------------------------------------------

  /** Concrete effect of `x := v`. */
  function Update(env: Env, sigma: seq<int>, x: string, v: int): (r: seq<int>)
    requires |sigma| == |env| && x in env
    ensures |r| == |env| && r[IndexOf(env, x).value] == v
  {
    sigma[IndexOf(env, x).value := v]
  }

  /** `o.assign(man, x, e, null)`. */
  function Assign(env: Env, s: AState, x: string, e: Texpr): (r: Res<AState>)
    requires WF(env, s)
    ensures r.Ok? <==> x in env && Known(env, e)
    ensures r.Ok? ==> WF(env, r.value) && (r.value.Bottom? <==> s.Bottom?)
  {
    match IndexOf(env, x)
    case None => Fault
    case Some(k) =>
      if !Known(env, e) then Fault
      else if s.Bottom? then Ok(Bottom)
      else Ok(Box(s.itvs[k := ItvOf(env, s.itvs, e).value]))
  }

  /** After `x := e`, every concrete successor of a state of `s` is represented. */
  lemma AssignSound(env: Env, s: AState, x: string, e: Texpr, sigma: seq<int>)
    requires WF(env, s) && Models(s, sigma) && x in env && Eval(env, sigma, e).Some?
    ensures Assign(env, s, x, e).Ok?
    ensures Models(Assign(env, s, x, e).value, Update(env, sigma, x, Eval(env, sigma, e).value))
  {
    ItvOfSound(env, s.itvs, e, sigma);
  }

  /** `o.forget(man, x, false)`: x becomes unconstrained. */
  function Forget(env: Env, s: AState, x: string): (r: Res<AState>)
    requires WF(env, s)
    ensures r.Ok? <==> x in env
    ensures r.Ok? ==> WF(env, r.value) && Leq(s, r.value) && (r.value.Bottom? <==> s.Bottom?)
    ensures r.Ok? ==> forall sigma, v :: Models(s, sigma) ==> Models(r.value, Update(env, sigma, x, v))
  {
    match IndexOf(env, x)
    case None => Fault
    case Some(k) => if s.Bottom? then Ok(Bottom) else Ok(Box(s.itvs[k := TopItv]))
  }

  /** `getBound(man, x)`: the interval of x; empty in the bottom state. */
  function BoundOf(env: Env, s: AState, x: string): (r: Res<Itv>)
    requires WF(env, s)
    ensures r.Ok? <==> x in env
    ensures r.Ok? && s.Bottom? ==> Empty(r.value)
    ensures r.Ok? ==> forall sigma :: Models(s, sigma) ==> In(sigma[IndexOf(env, x).value], r.value)
  {
    match IndexOf(env, x)
    case None => Fault
    case Some(k) => if s.Bottom? then Ok(EmptyItv) else Ok(s.itvs[k])
  }
}

=== FILE: intervals.dfy ===
/**
  Integer intervals with infinite bounds: the value type that the numeric
  library hands back for a bound query (`getBound`) and that the two
  checkers compare against each other with `cmp`.
 */
module Intervals {

  /** A lower or upper end of an interval. */
  datatype Bound = NegInf | Fin(n: int) | PosInf

  /** The total order NegInf < Fin(_) < PosInf. */
  predicate Le(a: Bound, b: Bound) {
    match (a, b)
    case (NegInf, _) => true
    case (_, PosInf) => true
    case (Fin(x), Fin(y)) => x <= y
    case _ => false
  }

  function MinB(a: Bound, b: Bound): Bound { if Le(a, b) then a else b }
  function MaxB(a: Bound, b: Bound): Bound { if Le(a, b) then b else a }

  /** `v` lies at or above the lower end `b`. */
  predicate AtLeast(v: int, b: Bound) { b.NegInf? || (b.Fin? && b.n <= v) }
  /** `v` lies at or below the upper end `b`. */
  predicate AtMost(v: int, b: Bound) { b.PosInf? || (b.Fin? && v <= b.n) }

  /** An interval [lo, hi]; it is empty when lo lies above hi. */
  datatype Itv = Itv(lo: Bound, hi: Bound)

  predicate In(v: int, i: Itv) { AtLeast(v, i.lo) && AtMost(v, i.hi) }

  const TopItv: Itv := Itv(NegInf, PosInf)
  const EmptyItv: Itv := Itv(PosInf, NegInf)

  function Point(v: int): Itv { Itv(Fin(v), Fin(v)) }
  function Range(a: int, b: int): Itv { Itv(Fin(a), Fin(b)) }

  predicate Empty(i: Itv) {
    i.lo.PosInf? || i.hi.NegInf? || (i.lo.Fin? && i.hi.Fin? && i.lo.n > i.hi.n)
  }

  /** Some value of a non-empty interval. */
  function Witness(i: Itv): (v: int)
    requires !Empty(i)
    ensures In(v, i)
  {
    if i.lo.Fin? then i.lo.n else if i.hi.Fin? then i.hi.n else 0
  }

  lemma EmptyMeansNoValue(i: Itv)
    ensures Empty(i) <==> forall v :: !In(v, i)
  {
    if !Empty(i) {
      var w := Witness(i);
      assert In(w, i);
    }
  }

  /** Set inclusion of intervals, decided on the bounds. */
  predicate Within(a: Itv, b: Itv) {
    Empty(a) || (Le(b.lo, a.lo) && Le(a.hi, b.hi))
  }

  /** The bound test `Sub` is exactly inclusion of the value sets. */
  lemma {:induction false} WithinIff(a: Itv, b: Itv)
    ensures Within(a, b) <==> forall v :: In(v, a) ==> In(v, b)
  {
    if !Within(a, b) {
      assert !Empty(a);
      if !Le(b.lo, a.lo) {
        // some value of a lies below the lower end of b
        assert b.lo.Fin? || b.lo.PosInf?;
        var v := if a.lo.Fin? then a.lo.n
                 else if b.lo.PosInf? then Witness(a)
                 else if a.hi.Fin? && a.hi.n < b.lo.n - 1 then a.hi.n
                 else b.lo.n - 1;
        assert In(v, a) && !In(v, b);
      } else {
        assert !Le(a.hi, b.hi);
        var v := if a.hi.Fin? then a.hi.n
                 else if b.hi.NegInf? then Witness(a)
                 else if a.lo.Fin? && a.lo.n > b.hi.n + 1 then a.lo.n
                 else b.hi.n + 1;
        assert In(v, a) && !In(v, b);
      }
    }
  }

  /** Apron's `Interval.cmp`: 0 when equal as sets, -1 when `a` is included in `b`,
      1 when `b` is included in `a`, 2 otherwise. */
  function Cmp(a: Itv, b: Itv): (r: int)
    ensures r == 0 <==> forall v :: In(v, a) <==> In(v, b)
    ensures r == -1 <==> (forall v :: In(v, a) ==> In(v, b)) && exists v :: In(v, b) && !In(v, a)
    ensures r == 1 <==> (forall v :: In(v, b) ==> In(v, a)) && exists v :: In(v, a) && !In(v, b)
    ensures r == 2 <==> (exists v :: In(v, a) && !In(v, b)) && exists v :: In(v, b) && !In(v, a)
  {
    WithinIff(a, b);
    WithinIff(b, a);
    if Within(a, b) && Within(b, a) then 0
    else if Within(a, b) then -1
    else if Within(b, a) then 1
    else 2
  }

  /** The convex hull of two non-empty intervals. */
  function Hull(a: Itv, b: Itv): (r: Itv)
    ensures forall v :: In(v, a) || In(v, b) ==> In(v, r)
    ensures Within(a, r) && Within(b, r)
    ensures !Empty(a) ==> !Empty(r)
  {
    Itv(MinB(a.lo, b.lo), MaxB(a.hi, b.hi))
  }

  /** Standard interval widening: an end that moved outwards jumps to infinity. */
  function WidenItv(a: Itv, b: Itv): Itv {
    Itv(if Le(a.lo, b.lo) then a.lo else NegInf,
        if Le(b.hi, a.hi) then a.hi else PosInf)
  }

  /** How far each end is from its infinity: a lower end counts 0 at NegInf,
      1 when finite, 2 at PosInf, and an upper end the other way round.
      Widening can only lower it. */
  function Rank(i: Itv): nat {
    (match i.lo case NegInf => 0 case Fin(_) => 1 case PosInf => 2)
    + (match i.hi case PosInf => 0 case Fin(_) => 1 case NegInf => 2)
  }

  lemma WidenItvUpper(a: Itv, b: Itv)
    ensures Within(a, WidenItv(a, b)) && Within(b, WidenItv(a, b))
  {
  }

  /** Widening either leaves the first operand as it was or moves an end to its infinity. */
  lemma WidenItvProgress(a: Itv, b: Itv)
    ensures WidenItv(a, b) == a || Rank(WidenItv(a, b)) < Rank(a)
    ensures Rank(WidenItv(a, b)) <= Rank(a)
    ensures !Empty(a) ==> !Empty(WidenItv(a, b))
  {
  }

  // ---- interval arithmetic, sound for the exact integer operations ----

  function AddLo(a: Bound, b: Bound): Bound {
    if a.Fin? && b.Fin? then Fin(a.n + b.n) else if a.PosInf? || b.PosInf? then PosInf else NegInf
  }
  function AddHi(a: Bound, b: Bound): Bound {
    if a.Fin? && b.Fin? then Fin(a.n + b.n) else if a.NegInf? || b.NegInf? then NegInf else PosInf
  }
  function Negate(b: Bound): Bound {
    match b
    case NegInf => PosInf
    case Fin(n) => Fin(-n)
    case PosInf => NegInf
  }

  function AddItv(a: Itv, b: Itv): (r: Itv)
    ensures forall x, y :: In(x, a) && In(y, b) ==> In(x + y, r)
    ensures !Empty(a) && !Empty(b) ==> !Empty(r)
  {
    Itv(AddLo(a.lo, b.lo), AddHi(a.hi, b.hi))
  }

  function SubItv(a: Itv, b: Itv): (r: Itv)
    ensures forall x, y :: In(x, a) && In(y, b) ==> In(x - y, r)
    ensures !Empty(a) && !Empty(b) ==> !Empty(r)
  {
    Itv(AddLo(a.lo, Negate(b.hi)), AddHi(a.hi, Negate(b.lo)))
  }

  /** Java's `int` division, which truncates toward zero. */
  function JavaDiv(x: int, y: int): int
    requires y != 0
  {
    var q := (if x < 0 then -x else x) / (if y < 0 then -y else y);
    if (x < 0) != (y < 0) then -q else q
  }

  predicate IsPoint(i: Itv) { i.lo.Fin? && i.hi.Fin? && i.lo.n == i.hi.n }

  function MulItv(a: Itv, b: Itv): (r: Itv)
    ensures forall x, y :: In(x, a) && In(y, b) ==> In(x * y, r)
    ensures !Empty(a) && !Empty(b) ==> !Empty(r)
  {
    if IsPoint(a) && IsPoint(b) then Point(a.lo.n * b.lo.n) else TopItv
  }

  function DivItv(a: Itv, b: Itv): (r: Itv)
    ensures forall x, y :: In(x, a) && In(y, b) && y != 0 ==> In(JavaDiv(x, y), r)
    ensures !Empty(a) && !Empty(b) ==> !Empty(r)
  {
    if IsPoint(a) && IsPoint(b) && b.lo.n != 0 then Point(JavaDiv(a.lo.n, b.lo.n)) else TopItv
  }
}

=== FILE: jimple.dfy ===
/**
  The slice of Soot's Jimple intermediate representation that the analysis
  inspects: types, values (immediates and expressions) and statements.
 */
module Jimple {

  /** Soot types, as far as the analysis distinguishes them. */
  datatype JType =
    | IntT | ShortT | ByteT | CharT | BooleanT       // Soot's IntegerType family
    | LongT | FloatT | DoubleT
    | RefT(className: string)                         // RefType, named by its class
    | ArrayT(elem: string)                            // ArrayType
    | VoidT

  /** The resource type whose indices are checked. */
  const ResourceArrayName: string := "PrinterArray"
  /** The method whose argument indexes the resource. */
  const FunctionName: string := "sendJob"

  /** `getType() instanceof IntegerType`: the types tracked in the environment. */
  predicate IsIntegerType(t: JType) {
    t.IntT? || t.ShortT? || t.ByteT? || t.CharT? || t.BooleanT?
  }

  /** `getType().toString().equals("PrinterArray")`. */
  predicate IsPrinterArray(t: JType) {
    t.RefT? && t.className == ResourceArrayName
  }

  datatype BinOp = AddOp | SubOp | MulOp | DivOp
    | OtherBinOp   // rem, and, or, xor, shifts, cmp, cmpl, cmpg

  /** The six comparison expressions that can guard a Jimple `if`. */
  datatype CmpOp = EqOp | NeOp | GeOp | LeOp | GtOp | LtOp

  datatype InvokeExpr =
    | SpecialInvoke(declaringClass: string, args: seq<Value>)  // constructors, private and super calls
    | VirtualInvoke(base: string, methodName: string, args: seq<Value>)
    | OtherInvoke(args: seq<Value>)                              // static and interface calls

  datatype Value =
    | IntConst(v: int)                                     // IntConstant
    | Local(name: string, ty: JType)                       // JimpleLocal
    | Binop(op: BinOp, l: Value, r: Value, ty: JType)      // AbstractBinopExpr (arithmetic)
    | Compare(cop: CmpOp, l: Value, r: Value)              // JEqExpr ... JLtExpr
    | Invoke(call: InvokeExpr, ty: JType)                  // an InvokeExpr used as a value
    | ArrayRef(base: string, ty: JType)                    // JArrayRef
    | InstanceFieldRef(field: string, ty: JType)           // JInstanceFieldRef
    | StaticFieldRef(field: string, ty: JType)             // StaticFieldRef
    | OtherValue(ty: JType)                                // other constants, new, casts, lengthof, @parameter, ...

  function TypeOf(v: Value): JType {
    match v
    case IntConst(_) => IntT
    case Local(_, t) => t
    case Binop(_, _, _, t) => t
    case Compare(_, _, _) => BooleanT
    case Invoke(_, t) => t
    case ArrayRef(_, t) => t
    case InstanceFieldRef(_, t) => t
    case StaticFieldRef(_, t) => t
    case OtherValue(t) => t
  }

  datatype Stmt =
    | Def(lhs: Value, rhs: Value)    // DefinitionStmt: assignments and identity statements
    | If(cond: Value)                // JIfStmt
    | InvokeStmt(call: InvokeExpr)   // JInvokeStmt
    | OtherStmt                      // goto, return, throw, ...

  /** A declared local variable or class field, with its type. */
  datatype Decl = Decl(name: string, ty: JType)
}

=== FILE: transfer.dfy ===
/**
  The transfer functions of the analysis (`Analysis.handleIf`,
  `Analysis.handleDef` and the effect of `Analysis.flowThrough` on the
  successor states), as written in the analyzer, together with the
  corrected definitions for the places where the code does not do what
  it evidently intends.
 */
module Transfer {
  import opened Wrappers
  import opened Intervals
  import opened NumDomain
  import opened Jimple

  /** How a transfer ends: with a value, with the numeric library's exception
      (caught by `flowThrough`), or with an unchecked exception that aborts
      the whole analysis (a failed cast while printing a diagnostic). */
  datatype Out<T> = Done(value: T) | DomainError | Crash

  function Lift(r: Res<AState>): Out<AState> {
    match r
    case Ok(s) => Done(s)
    case Fault => DomainError
  }

  // ---------------------------------------------------------------------------
  // Conditions: handleIf
  // ---------------------------------------------------------------------------

  /** What handleIf makes of one side of a comparison. */
  datatype IfOperand = AtomOp(a: Atom) | PrinterArrayOp | BadOp

  function ClassifyIfOperand(v: Value): IfOperand {
    match v
    case IntConst(c) => AtomOp(ACst(c))
    case Local(x, t) => if IsPrinterArray(t) then PrinterArrayOp else AtomOp(AVar(x))
    case _ => BadOp
  }

  /** The constraint met into `ow` and the one met into `ow_branchout`, per comparator. */
  function BranchConstraints(op: CmpOp, a: Atom, b: Atom): (Tcons, Tcons) {
    match op
    case NeOp => (Tcons(DISEQ, a, b), Tcons(EQ, a, b))
    case EqOp => (Tcons(EQ, a, b), Tcons(DISEQ, a, b))
    case GeOp => (Tcons(SUPEQ, a, b), Tcons(SUP, b, a))
    case LeOp => (Tcons(SUPEQ, b, a), Tcons(SUP, a, b))
    case GtOp => (Tcons(SUP, a, b), Tcons(SUPEQ, b, a))
    case LtOp => (Tcons(SUP, b, a), Tcons(SUPEQ, a, b))
  }

  /** Java's meaning of the comparison. */
  predicate CmpHolds(op: CmpOp, x: int, y: int) {
    match op
    case EqOp => x == y
    case NeOp => x != y
    case GeOp => x >= y
    case LeOp => x <= y
    case GtOp => x > y
    case LtOp => x < y
  }

  /** For every comparator, a concrete state satisfies exactly one of the two
      constraints, and the first one exactly when the comparison holds. */
  lemma BranchConstraintsSplit(env: Env, op: CmpOp, a: Atom, b: Atom, sigma: seq<int>)
    requires |sigma| == |env| && AtomKnown(env, a) && AtomKnown(env, b)
    ensures var x := Eval(env, sigma, AtomExpr(a)).value;
            var y := Eval(env, sigma, AtomExpr(b)).value;
            var (c1, c2) := BranchConstraints(op, a, b);
            && (Sat(env, sigma, c1) <==> CmpHolds(op, x, y))
            && (Sat(env, sigma, c2) <==> !CmpHolds(op, x, y))
  {
  }

  /** `handleIf`: the pair (`ow`, `ow_branchout`). A side that is neither a constant
      nor a local fails the cast in the diagnostic; a numeric side naming an untracked
      variable makes the library raise; otherwise both outputs are meets of the input. */
  function HandleIf(env: Env, input: AState, cond: Value): (r: Out<(AState, AState)>)
    requires WF(env, input) && cond.Compare?
    ensures r.Crash? <==> ClassifyIfOperand(cond.l).BadOp? ||
                          (ClassifyIfOperand(cond.l).AtomOp? && ClassifyIfOperand(cond.r).BadOp?)
    ensures r.DomainError? <==> ClassifyIfOperand(cond.l).AtomOp? && ClassifyIfOperand(cond.r).AtomOp? &&
                                !(AtomKnown(env, ClassifyIfOperand(cond.l).a) && AtomKnown(env, ClassifyIfOperand(cond.r).a))
    ensures r.Done? ==> && WF(env, r.value.0) && WF(env, r.value.1)
                        && Leq(r.value.0, input) && Leq(r.value.1, input)
  {
    match ClassifyIfOperand(cond.l)
    case BadOp => Crash
    case PrinterArrayOp => Done((input, input))
    case AtomOp(a) =>
      match ClassifyIfOperand(cond.r)
      case BadOp => Crash
      case PrinterArrayOp => Done((input, input))
      case AtomOp(b) =>
        var (c1, c2) := BranchConstraints(cond.cop, a, b);
        match MeetCons(env, input, c1)
        case Fault => DomainError
        case Ok(ow) =>
          match MeetCons(env, input, c2)
          case Fault => DomainError
          case Ok(br) => Done((ow, br))
  }

  /** Both sides are constants or non-resource locals whose variables are tracked,
      so the comparison has a numeric meaning in `sigma`. */
  predicate Numeric(env: Env, cond: Value) {
    cond.Compare? && ClassifyIfOperand(cond.l).AtomOp? && ClassifyIfOperand(cond.r).AtomOp?
    && AtomKnown(env, ClassifyIfOperand(cond.l).a) && AtomKnown(env, ClassifyIfOperand(cond.r).a)
  }

  /** The comparison holds in `sigma`. */
  predicate CondHolds(env: Env, sigma: seq<int>, cond: Value)
    requires |sigma| == |env| && Numeric(env, cond)
  {
    CmpHolds(cond.cop, Eval(env, sigma, AtomExpr(ClassifyIfOperand(cond.l).a)).value,
                       Eval(env, sigma, AtomExpr(ClassifyIfOperand(cond.r).a)).value)
  }

  /** A comparison with a resource-typed operand refines nothing. */
  lemma HandleIfPrinterArray(env: Env, input: AState, cond: Value)
    requires WF(env, input) && cond.Compare?
    requires ClassifyIfOperand(cond.l).PrinterArrayOp? ||
             (ClassifyIfOperand(cond.l).AtomOp? && ClassifyIfOperand(cond.r).PrinterArrayOp?)
    ensures HandleIf(env, input, cond) == Done((input, input))
  {
  }

  /** handleIf as written: `ow` keeps every state in which the comparison holds,
      `ow_branchout` every state in which it fails; no state of `input` is lost. */
  lemma {:induction false} HandleIfSound(env: Env, input: AState, cond: Value, sigma: seq<int>)
    requires WF(env, input) && Models(input, sigma) && Numeric(env, cond)
    ensures HandleIf(env, input, cond).Done?
    ensures CondHolds(env, sigma, cond) ==> Models(HandleIf(env, input, cond).value.0, sigma)
    ensures !CondHolds(env, sigma, cond) ==> Models(HandleIf(env, input, cond).value.1, sigma)
  {
    var a, b := ClassifyIfOperand(cond.l).a, ClassifyIfOperand(cond.r).a;
    var (c1, c2) := BranchConstraints(cond.cop, a, b);
    BranchConstraintsSplit(env, cond.cop, a, b, sigma);
    if CondHolds(env, sigma, cond) {
      MeetConsSound(env, input, c1, sigma);
    } else {
      MeetConsSound(env, input, c2, sigma);
    }
  }

  /** Finding: Soot hands `flowThrough` the fall-through successors in `fallOut`
      and the jump targets in `branchOuts`, and a Jimple `if` jumps when its
      condition holds; handleIf puts the condition-true state in `ow`, which
      goes to the fall-through. With i0 = 0 known, `if i0 >= 0 goto L` sends
      bottom to L although execution reaches L with i0 = 0. */
  lemma EdgesSwappedAsWritten()
    ensures var env := ["i0"];
            var input := Box([Point(0)]);
            var cond := Compare(GeOp, Local("i0", IntT), IntConst(0));
            && WF(env, input) && Models(input, [0]) && Numeric(env, cond)
            && CondHolds(env, [0], cond)
            && HandleIf(env, input, cond) == Done((input, Bottom))
            && !Models(HandleIf(env, input, cond).value.1, [0])
  {
    var env := ["i0"];
    var input := Box([Point(0)]);
    assert IndexOf(env, "i0") == Some(0);
    var L := Point(0);
    var c1, c2 := Tcons(SUPEQ, AVar("i0"), ACst(0)), Tcons(SUP, ACst(0), AVar("i0"));
    assert AtomItv(env, input.itvs, AVar("i0")) == L && AtomItv(env, input.itvs, ACst(0)) == L;
    assert Refine(SUPEQ, L, L) == (L, L);
    assert WriteAtom(env, input.itvs, c1.l, L) == [L];
    assert MeetCons(env, input, c1) == Ok(input);
    var e := Range(0, -1);
    assert Refine(SUP, L, L) == (Range(1, 0), e);
    assert WriteAtom(env, input.itvs, c2.r, e) == [e];
    assert Normalize([e]) == Bottom by { assert Empty([e][0]); }
    assert MeetCons(env, input, c2) == Ok(Bottom);
  }

  /** The corrected condition transfer: the branch target gets the state in which
      the comparison holds, the fall-through the state in which it fails. */
  function HandleIfIntended(env: Env, input: AState, cond: Value): (r: Out<(AState, AState)>)
    requires WF(env, input) && cond.Compare?
    ensures r.Done? ==> Leq(r.value.0, input) && Leq(r.value.1, input)
    ensures forall sigma :: Models(input, sigma) && Numeric(env, cond) ==>
              r.Done? &&
              (CondHolds(env, sigma, cond) ==> Models(r.value.1, sigma)) &&
              (!CondHolds(env, sigma, cond) ==> Models(r.value.0, sigma))
  {
    forall sigma | Models(input, sigma) && Numeric(env, cond)
      ensures HandleIf(env, input, cond).Done?
      ensures CondHolds(env, sigma, cond) ==> Models(HandleIf(env, input, cond).value.0, sigma)
      ensures !CondHolds(env, sigma, cond) ==> Models(HandleIf(env, input, cond).value.1, sigma)
    {
      HandleIfSound(env, input, cond, sigma);
    }
    match HandleIf(env, input, cond)
    case Done((taken, notTaken)) => Done((notTaken, taken))
    case DomainError => DomainError
    case Crash => Crash
  }

  // ---------------------------------------------------------------------------
  // Assignments: handleDef
  // ---------------------------------------------------------------------------

  /** A binop operand as an expression leaf; None where the analyzer's cast fails. */
  function DefOperand(v: Value): Option<Texpr> {
    match v
    case IntConst(c) => Some(Cst(c))
    case Local(x, _) => Some(Var(x))
    case _ => None
  }

  function ArithOf(op: BinOp): ArithOp
    requires !op.OtherBinOp?
  {
    match op
    case AddOp => Add
    case SubOp => Sub
    case MulOp => Mul
    case DivOp => Div
  }

  /** The divisor is the literal 0 in a division. */
  predicate DivByZeroConst(op: BinOp, b: Value) {
    op.DivOp? && b.IntConst? && b.v == 0
  }

  /** `handleDef` on the copy `o` of the incoming state, as written. Only an arithmetic
      operand that is neither a constant nor a local crashes (the cast in the
      diagnostic); a tracked target raises only through an untracked operand; the
      result is well formed and is bottom exactly when `o` is. */
  function HandleDef(env: Env, o: AState, lhs: Value, rhs: Value): (r: Out<AState>)
    requires WF(env, o)
    ensures r.Crash? <==> lhs.Local? && rhs.Binop? && !rhs.op.OtherBinOp? &&
                          (DefOperand(rhs.l).None? || (!DivByZeroConst(rhs.op, rhs.r) && DefOperand(rhs.r).None?))
    ensures lhs.Local? && lhs.name in env && !rhs.Binop? ==> !r.DomainError?
    ensures r.Done? ==> WF(env, r.value) && (r.value.Bottom? <==> o.Bottom?)
  {
    if !lhs.Local? then Done(o)
    else
      var x := lhs.name;
      match rhs
      case IntConst(c) => Lift(Assign(env, o, x, Cst(c)))
      case Local(y, t) =>
        if IsPrinterArray(t) then Done(o)
        else if y in env then Lift(Assign(env, o, x, Var(y)))
        else Done(o)                                   // untracked source: no forget
      case Binop(op, a, b, _) =>
        if op.OtherBinOp? then Done(o)
        else (match DefOperand(a)
          case None => Crash
          case Some(ea) =>
            if DivByZeroConst(op, b) then Done(o)      // bottom only reaches a local copy
            else (match DefOperand(b)
              case None => Crash
              case Some(eb) => Lift(Assign(env, o, x, Bin(ArithOf(op), ea, eb)))))
      case Compare(_, _, _) => Done(o)
      case _ => if x in env then Lift(Forget(env, o, x)) else Done(o)
  }

  /** After `x := c` the bound of x is exactly [c, c], and no other variable changes. */
  lemma HandleDefConst(env: Env, o: AState, x: string, t: JType, c: int)
    requires WF(env, o) && o.Box? && x in env
    ensures var r := HandleDef(env, o, Local(x, t), IntConst(c));
            && r.Done? && r.value.Box?
            && BoundOf(env, r.value, x) == Ok(Point(c))
            && r.value.itvs == o.itvs[IndexOf(env, x).value := Point(c)]
  {
  }

  /** After `x := y` with y tracked, x takes y's values: its bound is y's, and each
      concrete state with x overwritten by y's value is represented. */
  lemma {:induction false} HandleDefCopy(env: Env, o: AState, x: string, tx: JType, y: string, ty: JType, sigma: seq<int>)
    requires WF(env, o) && o.Box? && x in env && y in env && !IsPrinterArray(ty)
    requires Models(o, sigma)
    ensures var r := HandleDef(env, o, Local(x, tx), Local(y, ty));
            && r.Done?
            && BoundOf(env, r.value, x) == BoundOf(env, o, y)
            && r.value.itvs == o.itvs[IndexOf(env, x).value := o.itvs[IndexOf(env, y).value]]
            && Models(r.value, Update(env, sigma, x, sigma[IndexOf(env, y).value]))
  {
    AssignSound(env, o, x, Var(y), sigma);
  }

  /** `x := a op b` assigns exactly that expression: x takes the expression's interval
      over the incoming box, every other variable keeps its own, and every concrete
      result is represented. */
  lemma {:induction false} HandleDefBinop(env: Env, o: AState, x: string, tx: JType, op: BinOp,
                                         a: Value, b: Value, tb: JType, sigma: seq<int>)
    requires WF(env, o) && Models(o, sigma) && x in env
    requires !op.OtherBinOp? && !DivByZeroConst(op, b)
    requires DefOperand(a).Some? && DefOperand(b).Some?
    requires Eval(env, sigma, Bin(ArithOf(op), DefOperand(a).value, DefOperand(b).value)).Some?
    ensures var e := Bin(ArithOf(op), DefOperand(a).value, DefOperand(b).value);
            var r := HandleDef(env, o, Local(x, tx), Binop(op, a, b, tb));
            && r.Done? && r.value.Box?
            && r.value.itvs == o.itvs[IndexOf(env, x).value := ItvOf(env, o.itvs, e).value]
            && Models(r.value, Update(env, sigma, x, Eval(env, sigma, e).value))
  {
    AssignSound(env, o, x, Bin(ArithOf(op), DefOperand(a).value, DefOperand(b).value), sigma);
  }

  /** i0 in [0, 10] becomes i0 in [1, 11] after `i0 := i0 + 1`. */
  lemma IncrementExample()
    ensures var env := ["i0"];
            var r := HandleDef(env, Box([Range(0, 10)]), Local("i0", IntT),
                               Binop(AddOp, Local("i0", IntT), IntConst(1), IntT));
            r == Done(Box([Range(1, 11)]))
  {
    var env := ["i0"];
    assert IndexOf(env, "i0") == Some(0);
    var e := Bin(Add, Var("i0"), Cst(1));
    assert ItvOf(env, [Range(0, 10)], Var("i0")) == Some(Range(0, 10));
    assert ItvOf(env, [Range(0, 10)], e) == Some(AddItv(Range(0, 10), Point(1)));
    assert AddItv(Range(0, 10), Point(1)) == Range(1, 11);
    assert [Range(0, 10)][0 := Range(1, 11)] == [Range(1, 11)];
    assert Assign(env, Box([Range(0, 10)]), "i0", e) == Ok(Box([Range(1, 11)]));
  }

  /** The shapes that leave the state as it was, with no forget: division by the
      literal 0, a resource-typed copy, an untracked source, an unsupported binop,
      a comparison, or a target that is not a local. */
  lemma HandleDefUnchanged(env: Env, o: AState, lhs: Value, rhs: Value)
    requires WF(env, o)
    requires || !lhs.Local?
             || (rhs.Binop? && !rhs.op.OtherBinOp? && DefOperand(rhs.l).Some? && DivByZeroConst(rhs.op, rhs.r))
             || (rhs.Local? && (IsPrinterArray(rhs.ty) || rhs.name !in env))
             || (rhs.Binop? && rhs.op.OtherBinOp?)
             || rhs.Compare?
    ensures HandleDef(env, o, lhs, rhs) == Done(o)
  {
  }

  /** Any other right-hand side forgets a tracked target and leaves an untracked one alone. */
  lemma HandleDefOther(env: Env, o: AState, x: string, t: JType, rhs: Value)
    requires WF(env, o)
    requires !rhs.IntConst? && !rhs.Local? && !rhs.Binop? && !rhs.Compare?
    ensures x in env ==> HandleDef(env, o, Local(x, t), rhs) == Done(Forget(env, o, x).value)
    ensures x !in env ==> HandleDef(env, o, Local(x, t), rhs) == Done(o)
  {
  }

  /** Finding: `x := a / 0` is meant to make the state bottom (the division throws),
      but the bottom value only replaces the local parameter, so the state goes
      on unchanged and concrete-less states stay reachable. */
  lemma DivByZeroKeepsStateAsWritten(env: Env, o: AState, x: string, a: Value)
    requires WF(env, o) && o.Box? && DefOperand(a).Some?
    ensures HandleDef(env, o, Local(x, IntT), Binop(DivOp, a, IntConst(0), IntT)) == Done(o)
    ensures o != Bottom
  {
  }

  /** The corrected assignment transfer: `x := a / 0` yields bottom, since no
      execution gets past it; everything else is as written. */
  function HandleDefIntended(env: Env, o: AState, lhs: Value, rhs: Value): (r: Out<AState>)
    requires WF(env, o)
    ensures (lhs.Local? && rhs.Binop? && !rhs.op.OtherBinOp? && DefOperand(rhs.l).Some?
             && DivByZeroConst(rhs.op, rhs.r)) ==> r == Done(Bottom)
    ensures lhs.Local? && rhs.Binop? && DivByZeroConst(rhs.op, rhs.r) && r.Done? ==> forall sigma :: !Models(r.value, sigma)
    ensures !(lhs.Local? && rhs.Binop? && DivByZeroConst(rhs.op, rhs.r)) ==> r == HandleDef(env, o, lhs, rhs)
    ensures r.Done? ==> WF(env, r.value)
  {
    if lhs.Local? && rhs.Binop? && !rhs.op.OtherBinOp? && DefOperand(rhs.l).Some?
       && DivByZeroConst(rhs.op, rhs.r) then Done(Bottom)
    else HandleDef(env, o, lhs, rhs)
  }

  // ---------------------------------------------------------------------------
  // flowThrough: what reaches the successor lists
  // ---------------------------------------------------------------------------

  /** The states written to the fall-through successors and to the branch
      targets; None leaves those successors as they were. */
  datatype Outs = Outs(fall: Option<AState>, branch: Option<AState>)

  /** A definition whose target the analyzer returns on before writing any successor. */
  predicate SkippedTarget(lhs: Value) {
    var t := TypeOf(lhs);
    lhs.ArrayRef? || lhs.InstanceFieldRef? || t.DoubleT?
    || (t.RefT? && !IsPrinterArray(t)) || t.ArrayT?
  }

  /** The effect of `flowThrough(current, s, fallOut, branchOuts)` as written: both
      successor lists are written or neither is, and what is written is well formed. */
  function FlowOut(env: Env, input: AState, s: Stmt): (r: Out<Outs>)
    requires WF(env, input)
    ensures r.Done? ==> (r.value.fall.Some? <==> r.value.branch.Some?)
    ensures r.Done? && r.value.fall.Some? ==> WF(env, r.value.fall.value) && WF(env, r.value.branch.value)
    ensures s.Def? && !SkippedTarget(s.lhs) ==>
              var d := HandleDef(env, input, s.lhs, s.rhs);
              && (d.Done? ==> r == Done(Outs(Some(d.value), Some(input))))
              && (d.DomainError? ==> r == Done(Outs(None, None)))
              && (r.Crash? <==> d.Crash?)
  {
    match s
    case Def(lhs, rhs) =>
      if SkippedTarget(lhs) then Done(Outs(None, None))
      else (match HandleDef(env, input, lhs, rhs)
            case Done(o) => Done(Outs(Some(o), Some(input)))
            case DomainError => Done(Outs(None, None))
            case Crash => Crash)
    case If(cond) =>
      if cond.Compare? then
        (match HandleIf(env, input, cond)
         case Done((ow, br)) => Done(Outs(Some(ow), Some(br)))
         case DomainError => Done(Outs(None, None))
         case Crash => Crash)
      else Done(Outs(Some(input), Some(input)))
    case _ => Done(Outs(Some(input), Some(input)))
  }

  /** A statement that is neither a definition nor a comparison passes its input to both lists. */
  lemma FlowOutPassThrough(env: Env, input: AState, s: Stmt)
    requires WF(env, input) && !s.Def? && !(s.If? && s.cond.Compare?)
    ensures FlowOut(env, input, s) == Done(Outs(Some(input), Some(input)))
  {
  }

  /** A comparison sends handleIf's `ow` to the fall-through list and `ow_branchout`
      to the branch targets; each is below the input. */
  lemma FlowOutIf(env: Env, input: AState, cond: Value)
    requires WF(env, input) && cond.Compare?
    ensures var r := FlowOut(env, input, If(cond));
            r.Done? && r.value.fall.Some? ==>
              && r.value.fall.value == HandleIf(env, input, cond).value.0
              && r.value.branch.value == HandleIf(env, input, cond).value.1
              && Leq(r.value.fall.value, input) && Leq(r.value.branch.value, input)
  {
  }

  /** An assignment to an array element, an instance field, a double, an array or a
      non-resource reference writes no successor at all. */
  lemma FlowOutSkipped(env: Env, input: AState, lhs: Value, rhs: Value)
    requires WF(env, input) && SkippedTarget(lhs)
    ensures FlowOut(env, input, Def(lhs, rhs)) == Done(Outs(None, None))
  {
  }

  /** A method's first unit `r0 := @this: C` has a non-resource reference target, so in
      every instance method of a class other than `PrinterArray` no successor of it is
      written and the rest of the method keeps its bottom initial flow. */
  lemma ThisIdentitySkipped(env: Env, input: AState, cls: string)
    requires WF(env, input) && cls != ResourceArrayName
    ensures FlowOut(env, input, Def(Local("r0", RefT(cls)), OtherValue(RefT(cls)))) == Done(Outs(None, None))
  {
  }

  /** The corrected flowThrough: skipped targets pass the input on unchanged, and the
      corrected assignment and condition transfers are used. */
  function FlowOutIntended(env: Env, input: AState, s: Stmt): (r: Out<Outs>)
    requires WF(env, input)
    ensures s.Def? && SkippedTarget(s.lhs) ==> r == Done(Outs(Some(input), Some(input)))
    ensures s.Def? && !SkippedTarget(s.lhs) ==>
              var d := HandleDefIntended(env, input, s.lhs, s.rhs);
              && (d.Done? ==> r == Done(Outs(Some(d.value), Some(input))))
              && (d.DomainError? ==> r == Done(Outs(None, None)))
              && (r.Crash? <==> d.Crash?)
    ensures !s.Def? && !(s.If? && s.cond.Compare?) ==> r == Done(Outs(Some(input), Some(input)))
    ensures s.If? && s.cond.Compare? && r.Done? && r.value.fall.Some? && r.value.branch.Some? ==>
              forall sigma :: Models(input, sigma) && Numeric(env, s.cond) ==>
                (CondHolds(env, sigma, s.cond) ==> Models(r.value.branch.value, sigma)) &&
                (!CondHolds(env, sigma, s.cond) ==> Models(r.value.fall.value, sigma))
  {
    match s
    case Def(lhs, rhs) =>
      if SkippedTarget(lhs) then Done(Outs(Some(input), Some(input)))
      else (match HandleDefIntended(env, input, lhs, rhs)
            case Done(o) => Done(Outs(Some(o), Some(input)))
            case DomainError => Done(Outs(None, None))
            case Crash => Crash)
    case If(cond) =>
      if cond.Compare? then
        (match HandleIfIntended(env, input, cond)
         case Done((fall, taken)) => Done(Outs(Some(fall), Some(taken)))
         case DomainError => Done(Outs(None, None))
         case Crash => Crash)
      else Done(Outs(Some(input), Some(input)))
    case _ => Done(Outs(Some(input), Some(input)))
  }

  /** With the corrected transfers, the fall-through successors of `x = a / 0` receive
      bottom, so nothing after the throwing division is analysed as reachable, while
      the exceptional successors keep the incoming state. */
  lemma DivByZeroFlowsBottom(env: Env, input: AState, x: string, t: JType, a: Value, tb: JType)
    requires WF(env, input) && DefOperand(a).Some? && !SkippedTarget(Local(x, t))
    ensures FlowOutIntended(env, input, Def(Local(x, t), Binop(DivOp, a, IntConst(0), tb)))
              == Done(Outs(Some(Bottom), Some(input)))
  {
  }
}

=== FILE: verifier.dfy ===
/**
  The two checkers run on the analysis' fixpoint (`Verifier.java`): division by
  zero and the bounds of `sendJob` indices against the sizes of the
  `PrinterArray` objects the receiver may point to, and the class-level verdict.
 */
module Verifier {
  import opened Wrappers
  import opened Intervals
  import opened NumDomain
  import opened Jimple
  import opened FlowAnalysis

  /** One analysed method: its environment, its units in chain order, and the
      fixpoint flow before each unit (`getFlowBefore`). */
  datatype MethodFacts = MethodFacts(env: Env, units: seq<Stmt>, before: seq<AState>)

  predicate ValidFacts(m: MethodFacts) {
    |m.units| == |m.before| && forall k :: 0 <= k < |m.before| ==> WF(m.env, m.before[k])
  }

  // ---------------------------------------------------------------------------
  // Division by zero
  // ---------------------------------------------------------------------------

  /** The divisor's bound compared with [0, 0] gives 0, 1 or -1. */
  predicate DivisorUnsafe(b: Itv) {
    var c := Cmp(b, Point(0));
    c == 0 || c == 1 || c == -1
  }

  /** The comparison flags exactly the bounds that contain 0 or are empty. */
  lemma DivisorUnsafeIff(b: Itv)
    ensures DivisorUnsafe(b) <==> Empty(b) || In(0, b)
  {
    WithinIff(b, Point(0));
    WithinIff(Point(0), b);
    EmptyMeansNoValue(b);
  }

  lemma DivisorExamples()
    ensures DivisorUnsafe(Point(0)) && DivisorUnsafe(Range(-2, 3))
    ensures !DivisorUnsafe(Range(1, 10)) && !DivisorUnsafe(Range(-5, -1))
  {
    DivisorUnsafeIff(Point(0));
    DivisorUnsafeIff(Range(-2, 3));
    DivisorUnsafeIff(Range(1, 10));
    DivisorUnsafeIff(Range(-5, -1));
  }

  /** The second operand of a division among the unit's used values. */
  function Divisor(u: Stmt): Option<Value> {
    if u.Def? && u.rhs.Binop? && u.rhs.op.DivOp? then Some(u.rhs.r) else None
  }

  /** A reachable unit whose division may divide by zero: a local whose bound the
      comparison flags, or the constant 0. Other divisors and a bound query the
      library rejects raise nothing. */
  predicate UnitMayDivByZero(env: Env, s: AState, u: Stmt)
    requires WF(env, s)
  {
    match Divisor(u)
    case None => false
    case Some(d) =>
      match d
      case Local(x, _) => (match BoundOf(env, s, x) case Ok(b) => DivisorUnsafe(b) case Fault => false)
      case IntConst(c) => c == 0
      case _ => false
  }

  /** No reachable unit of the method may divide by zero. */
  predicate DivSafe(m: MethodFacts)
    requires ValidFacts(m)
  {
    forall k :: 0 <= k < |m.units| && m.before[k].Box? ==> !UnitMayDivByZero(m.env, m.before[k], m.units[k])
  }

  /** `verifyDivisionByZero`: skip unreachable units, stop at the first alarm. */
  method VerifyDivisionByZero(m: MethodFacts) returns (ok: bool)
    requires ValidFacts(m)
    ensures ok == DivSafe(m)
  {
    for k := 0 to |m.units|
      invariant forall j :: 0 <= j < k && m.before[j].Box? ==> !UnitMayDivByZero(m.env, m.before[j], m.units[j])
    {
      var state := m.before[k];
      if state.Bottom? {
        continue;
      }
      var d := Divisor(m.units[k]);
      if d.Some? {
        match d.value {
          case Local(x, _) =>
            var b := BoundOf(m.env, state, x);
            if b.Ok? {
              var c := Cmp(b.value, Point(0));
              if c == 0 || c == 1 || c == -1 {
                return false;
              }
            }
          case IntConst(c) =>
            if c == 0 {
              return false;
            }
          case _ =>
        }
      }
    }
    return true;
  }

  /** Soundness: when the method is declared safe, no concrete state admitted before
      a division has a zero divisor. */
  lemma {:induction false} DivSafeSound(m: MethodFacts, k: nat, sigma: seq<int>)
    requires ValidFacts(m) && DivSafe(m)
    requires k < |m.units| && Models(m.before[k], sigma) && Divisor(m.units[k]).Some?
    ensures Divisor(m.units[k]).value.IntConst? ==> Divisor(m.units[k]).value.v != 0
    ensures var d := Divisor(m.units[k]).value;
            d.Local? && d.name in m.env ==> sigma[IndexOf(m.env, d.name).value] != 0
  {
    var d := Divisor(m.units[k]).value;
    assert m.before[k].Box?;
    assert !UnitMayDivByZero(m.env, m.before[k], m.units[k]);
    if d.Local? && d.name in m.env {
      var b := BoundOf(m.env, m.before[k], d.name);
      DivisorUnsafeIff(b.value);
    }
  }

  /** An alarm on a tracked local is never spurious with respect to the state: some
      concrete state it admits has a zero divisor. */
  lemma {:induction false} DivAlarmRealisable(env: Env, s: AState, x: string)
    requires WF(env, s) && s.Box? && x in env
    requires DivisorUnsafe(BoundOf(env, s, x).value)
    ensures exists sigma :: Models(s, sigma) && sigma[IndexOf(env, x).value] == 0
  {
    var idx := IndexOf(env, x).value;
    DivisorUnsafeIff(s.itvs[idx]);
    var sigma := seq(|env|, i requires 0 <= i < |env| => if i == idx then 0 else Witness(s.itvs[i]));
    assert Models(s, sigma);
  }

  // ---------------------------------------------------------------------------
  // Array bounds
  // ---------------------------------------------------------------------------

  /** The points-to oracle: the allocation-site numbers a local may reference. A local
      missing from the map is one the analysis answers with its empty points-to set
      object, which is not a `DoublePointsToSet`, so the cast on it fails. */
  type PointsTo = map<string, set<nat>>

  function Reaching(pts: PointsTo, base: string): set<nat> {
    if base in pts then pts[base] else {}
  }

  /** Normal verdict, or an exception that aborts the run (a failed points-to set
      cast, an index outside the list of sites, a missing argument, a null index
      interval). */
  datatype BoundsResult = Verdict(safe: bool) | Crashed

  /** The visitor's test: the site's interval compared with the index gives 0 or 1. */
  predicate SiteCovers(site: Itv, index: Itv) {
    var c := Cmp(site, index);
    c == 0 || c == 1
  }

  /** The test holds exactly when every possible index value lies in the site. */
  lemma SiteCoversIff(site: Itv, index: Itv)
    ensures SiteCovers(site, index) <==> forall v :: In(v, index) ==> In(v, site)
  {
    WithinIff(index, site);
  }

  /** `pts.forall(visitor)`: every node is visited; a node numbered outside the
      site list or a null index aborts. */
  function VisitAll(nodes: set<nat>, sites: seq<Itv>, index: Option<Itv>): (r: BoundsResult)
    ensures r.Crashed? <==> (exists n :: n in nodes && !(1 <= n <= |sites|)) || (nodes != {} && index.None?)
    ensures r == Verdict(true) <==>
              forall n :: n in nodes ==> index.Some? && 1 <= n <= |sites| && Within(index.value, sites[n - 1])
  {
    if exists n :: n in nodes && !(1 <= n <= |sites|) then Crashed
    else if nodes != {} && index.None? then Crashed
    else Verdict(forall n :: n in nodes ==> SiteCovers(sites[n - 1], index.value))
  }

  /** Unit j is a reachable `new PrinterArray(c)` with a constant size c. */
  predicate IsConstAlloc(m: MethodFacts, j: nat)
    requires ValidFacts(m) && j < |m.units|
  {
    && m.before[j].Box?
    && m.units[j].InvokeStmt? && m.units[j].call.SpecialInvoke?
    && m.units[j].call.declaringClass == ResourceArrayName
    && |m.units[j].call.args| > 0 && m.units[j].call.args[0].IntConst?
  }

  /** The constant size given to the constructor at unit j. */
  function AllocSize(m: MethodFacts, j: nat): int
    requires ValidFacts(m) && j < |m.units| && IsConstAlloc(m, j)
  {
    m.units[j].call.args[0].v
  }

  /** The site of an array constructed with size c. */
  function SiteOfSize(c: int): Itv { Range(0, c - 1) }

  /** The site list after unit k: a constant-size constructor appends its site. */
  function AllocStep(m: MethodFacts, k: nat, sites: seq<Itv>): seq<Itv>
    requires ValidFacts(m) && k < |m.units|
  {
    if IsConstAlloc(m, k) then sites + [SiteOfSize(AllocSize(m, k))] else sites
  }

  /** The sites recorded by the units before k. */
  function SitesBefore(m: MethodFacts, k: nat): seq<Itv>
    requires ValidFacts(m) && k <= |m.units|
  {
    if k == 0 then [] else AllocStep(m, k - 1, SitesBefore(m, k - 1))
  }

  /** The constant-size constructor units before k, in unit order. */
  function AllocUnits(m: MethodFacts, k: nat): seq<nat>
    requires ValidFacts(m) && k <= |m.units|
  {
    if k == 0 then [] else AllocUnits(m, k - 1) + (if IsConstAlloc(m, k - 1) then [k - 1] else [])
  }

  /** Site i is [0, c - 1] where c is the literal size of the i-th reachable
      constant-size `PrinterArray` constructor before k, in unit order; every such
      constructor has a site. */
  lemma {:induction false} SitesAreRanges(m: MethodFacts, k: nat)
    requires ValidFacts(m) && k <= |m.units|
    ensures |SitesBefore(m, k)| == |AllocUnits(m, k)|
    ensures forall i :: 0 <= i < |AllocUnits(m, k)| ==>
              && AllocUnits(m, k)[i] < k && IsConstAlloc(m, AllocUnits(m, k)[i])
              && SitesBefore(m, k)[i] == SiteOfSize(AllocSize(m, AllocUnits(m, k)[i]))
    ensures forall i, i' :: 0 <= i < i' < |AllocUnits(m, k)| ==> AllocUnits(m, k)[i] < AllocUnits(m, k)[i']
    ensures forall j :: 0 <= j < k && IsConstAlloc(m, j) ==> j in AllocUnits(m, k)
  {
    if k > 0 {
      SitesAreRanges(m, k - 1);
      var prevU, curU := AllocUnits(m, k - 1), AllocUnits(m, k);
      var prevS, curS := SitesBefore(m, k - 1), SitesBefore(m, k);
      forall i | 0 <= i < |curU|
        ensures curU[i] < k && IsConstAlloc(m, curU[i]) && curS[i] == SiteOfSize(AllocSize(m, curU[i]))
      {
        if i < |prevU| {
          assert curU[i] == prevU[i] && curS[i] == prevS[i];
        }
      }
      forall j | 0 <= j < k && IsConstAlloc(m, j) ensures j in curU {
        if j < k - 1 {
          assert j in prevU;
        } else {
          assert curU[|curU| - 1] == j;
        }
      }
    }
  }

  /** What one unit does to the run: go on, or stop with a result. */
  datatype Step = Next | Stop(result: BoundsResult)

  /** One unit of `verifyBounds` given the sites recorded so far. */
  function BoundsStep(m: MethodFacts, pts: PointsTo, k: nat, sites: seq<Itv>): Step
    requires ValidFacts(m) && k < |m.units|
  {
    if m.before[k].Bottom? then Next
    else match m.units[k]
      case InvokeStmt(SpecialInvoke(cls, args)) =>
        if cls == ResourceArrayName && |args| == 0 then Stop(Crashed) else Next
      case InvokeStmt(VirtualInvoke(base, name, args)) =>
        if base !in pts then Stop(Crashed)     // the cast comes before the name test
        else if name != FunctionName then Next
        else if |args| == 0 then Stop(Crashed)
        else
          (match VisitAll(Reaching(pts, base), sites, GetInterval(m.env, m.before[k], args[0]))
           case Verdict(true) => Next
           case r => Stop(r))
      case _ => Next
  }

  /** `verifyBounds` from unit k on: the result and the site list when it stops. */
  function BoundsRun(m: MethodFacts, pts: PointsTo, k: nat, sites: seq<Itv>): (BoundsResult, seq<Itv>)
    requires ValidFacts(m) && k <= |m.units|
    decreases |m.units| - k
  {
    if k == |m.units| then (Verdict(true), sites)
    else match BoundsStep(m, pts, k, sites)
      case Stop(r) => (r, sites)
      case Next => BoundsRun(m, pts, k + 1, AllocStep(m, k, sites))
  }

  function Bounds(m: MethodFacts, pts: PointsTo): BoundsResult
    requires ValidFacts(m)
  {
    BoundsRun(m, pts, 0, []).0
  }

  /** A run that started with no sites is declared safe exactly when every unit
      from k on lets it go on. */
  lemma {:induction false} BoundsRunIff(m: MethodFacts, pts: PointsTo, k: nat)
    requires ValidFacts(m) && k <= |m.units|
    ensures BoundsRun(m, pts, k, SitesBefore(m, k)).0 == Verdict(true) <==>
              forall j :: k <= j < |m.units| ==> BoundsStep(m, pts, j, SitesBefore(m, j)).Next?
    decreases |m.units| - k
  {
    if k < |m.units| {
      BoundsRunIff(m, pts, k + 1);
      assert SitesBefore(m, k + 1) == AllocStep(m, k, SitesBefore(m, k));
    }
  }

  /** A run that gets past units i .. k-1 reaches unit k with the sites recorded before it. */
  lemma {:induction false} BoundsRunSkips(m: MethodFacts, pts: PointsTo, i: nat, k: nat)
    requires ValidFacts(m) && i <= k <= |m.units|
    requires forall j :: i <= j < k ==> BoundsStep(m, pts, j, SitesBefore(m, j)).Next?
    ensures BoundsRun(m, pts, i, SitesBefore(m, i)) == BoundsRun(m, pts, k, SitesBefore(m, k))
    decreases k - i
  {
    if i < k {
      assert SitesBefore(m, i + 1) == AllocStep(m, i, SitesBefore(m, i));
      BoundsRunSkips(m, pts, i + 1, k);
    }
  }

  /** The first reachable virtual call whose receiver has no points-to set of its own
      aborts the whole check, whatever method it calls, `sendJob` included. */
  lemma MissingReceiverAborts(m: MethodFacts, pts: PointsTo, k: nat)
    requires ValidFacts(m) && k < |m.units| && m.before[k].Box?
    requires m.units[k].InvokeStmt? && m.units[k].call.VirtualInvoke? && m.units[k].call.base !in pts
    requires forall j :: 0 <= j < k ==> BoundsStep(m, pts, j, SitesBefore(m, j)).Next?
    ensures Bounds(m, pts) == Crashed
  {
    BoundsRunSkips(m, pts, 0, k);
  }

  /** Soundness of a safe verdict: at every reachable `sendJob(x)` with x a tracked
      local, for every allocation site n the receiver may point to, n numbers the
      n-th reachable constant-size constructor before the call, and each admitted
      value of x lies in [0, c - 1] for that constructor's size c. */
  lemma {:induction false} BoundsSafeSound(m: MethodFacts, pts: PointsTo, k: nat, n: nat, sigma: seq<int>)
    requires ValidFacts(m) && Bounds(m, pts) == Verdict(true)
    requires k < |m.units| && m.units[k].InvokeStmt? && m.units[k].call.VirtualInvoke?
    requires m.units[k].call.methodName == FunctionName && |m.units[k].call.args| > 0
    requires m.units[k].call.args[0].Local? && IsIntValue(m.units[k].call.args[0])
    requires m.units[k].call.args[0].name in m.env
    requires n in Reaching(pts, m.units[k].call.base) && Models(m.before[k], sigma)
    ensures 1 <= n <= |AllocUnits(m, k)|
    ensures var j := AllocUnits(m, k)[n - 1];
            && j < k && IsConstAlloc(m, j)
            && 0 <= sigma[IndexOf(m.env, m.units[k].call.args[0].name).value] < AllocSize(m, j)
  {
    BoundsRunIff(m, pts, 0);
    assert BoundsStep(m, pts, k, SitesBefore(m, k)).Next?;
    var call := m.units[k].call;
    var idx := GetInterval(m.env, m.before[k], call.args[0]);
    var sites := SitesBefore(m, k);
    assert VisitAll(Reaching(pts, call.base), sites, idx) == Verdict(true);
    var x := IndexOf(m.env, call.args[0].name).value;
    assert In(sigma[x], idx.value);
    WithinIff(idx.value, sites[n - 1]);
    SitesAreRanges(m, k);
    var j := AllocUnits(m, k)[n - 1];
    assert sites[n - 1] == SiteOfSize(AllocSize(m, j));
  }

  lemma BoundsExamples()
    ensures SiteCovers(Range(0, 4), Point(4)) && SiteCovers(Range(0, 4), Range(1, 3))
    ensures !SiteCovers(Range(0, 4), Point(5)) && !SiteCovers(Range(0, 4), Range(0, 5))
    ensures !SiteCovers(Range(0, -1), Point(0))
  {
    SiteCoversIff(Range(0, 4), Point(5));
    SiteCoversIff(Range(0, 4), Range(0, 5));
    SiteCoversIff(Range(0, -1), Point(0));
  }

  /** The points-to visitor: the index interval and the running verdict. */
  class MyP2SetVisitor {
    const arrayIndex: Option<Itv>
    var returnValue: bool

    constructor (i: Option<Itv>)
      ensures arrayIndex == i && returnValue
    {
      arrayIndex := i;
      returnValue := true;
    }

    /** `visit(node)`: look up the node's site and clear the verdict unless it covers
        the index. Returns true when the lookup or the comparison throws. */
    method Visit(n: nat, sites: seq<Itv>) returns (crashed: bool)
      modifies this
      ensures crashed <==> !(1 <= n <= |sites|) || arrayIndex.None?
      ensures crashed ==> returnValue == old(returnValue)
      ensures !crashed ==> returnValue == (old(returnValue) && Within(arrayIndex.value, sites[n - 1]))
    {
      if !(1 <= n <= |sites|) || arrayIndex.None? {
        return true;
      }
      var site := sites[n - 1];
      var c := Cmp(site, arrayIndex.value);
      if !(c == 0 || c == 1) {
        returnValue := false;
      }
      return false;
    }
  }

  /** Holder of the site list that `verifyBounds` resets and fills. */
  class Verifier {
    var paInterval: seq<Itv>

    constructor ()
      ensures paInterval == []
    {
      paInterval := [];
    }

    /** `pts.forall(visitor)` over the receiver's allocation sites. */
    method VisitNodes(nodes: set<nat>, index: Option<Itv>) returns (r: BoundsResult)
      ensures r == VisitAll(nodes, paInterval, index)
    {
      var visitor := new MyP2SetVisitor(index);
      var rest := nodes;
      while rest != {}
        invariant rest <= nodes
        invariant forall n :: n in nodes - rest ==> 1 <= n <= |paInterval| && index.Some?
        invariant visitor.arrayIndex == index
        invariant visitor.returnValue <==> forall n :: n in nodes - rest ==> Within(index.value, paInterval[n - 1])
        decreases rest
      {
        var n :| n in rest;
        var crashed := visitor.Visit(n, paInterval);
        if crashed {
          return Crashed;
        }
        assert nodes - (rest - {n}) == (nodes - rest) + {n};
        rest := rest - {n};
      }
      assert nodes - rest == nodes;
      return Verdict(visitor.returnValue);
    }

    /** `verifyBounds`: reset the site list, then go through the reachable units,
        recording `PrinterArray` sizes and checking each `sendJob` index. */
    method VerifyBounds(m: MethodFacts, pts: PointsTo) returns (r: BoundsResult)
      requires ValidFacts(m)
      modifies this
      ensures (r, paInterval) == BoundsRun(m, pts, 0, [])
    {
      paInterval := [];
      for k := 0 to |m.units|
        invariant BoundsRun(m, pts, 0, []) == BoundsRun(m, pts, k, paInterval)
      {
        var state := m.before[k];
        if state.Bottom? {
          continue;
        }
        match m.units[k] {
          case InvokeStmt(SpecialInvoke(cls, args)) =>
            if cls == ResourceArrayName {
              if |args| == 0 {
                return Crashed;
              }
              if args[0].IntConst? {
                paInterval := paInterval + [SiteOfSize(args[0].v)];
              }
            }
          case InvokeStmt(VirtualInvoke(base, name, args)) =>
            if base !in pts {
              return Crashed;
            }
            if name == FunctionName {
              if |args| == 0 {
                return Crashed;
              }
              var index := GetInterval(m.env, state, args[0]);
              var v := VisitNodes(Reaching(pts, base), index);
              if v != Verdict(true) {
                return v;
              }
            }
          case _ =>
        }
      }
      return Verdict(true);
    }
  }

  // ---------------------------------------------------------------------------
  // The class verdict
  // ---------------------------------------------------------------------------

  /** The two report lines for a class whose methods were all checked: any method
      that may divide by zero, or whose bounds check fails, flips its flag. An
      exception from the bounds check aborts the run with no report (None). */
  method ClassVerdict(className: string, methods: seq<MethodFacts>, pts: PointsTo) returns (out: Option<seq<string>>)
    requires forall i :: 0 <= i < |methods| ==> ValidFacts(methods[i])
    ensures out.None? <==> exists i :: 0 <= i < |methods| && Bounds(methods[i], pts).Crashed?
    ensures out.Some? ==>
              (out.value ==
              [className + (if forall i :: 0 <= i < |methods| ==> DivSafe(methods[i]) then " NO_DIV_ZERO" else " MAY_DIV_ZERO"),
               className + (if forall i :: 0 <= i < |methods| ==> Bounds(methods[i], pts) == Verdict(true)
                            then " NO_OUT_OF_BOUNDS" else " MAY_OUT_OF_BOUNDS")])
  {
    var programCorrectFlag := 1;
    var divisionByZeroFlag := 1;
    var checker := new Verifier();
    for i := 0 to |methods|
      invariant forall j :: 0 <= j < i ==> !Bounds(methods[j], pts).Crashed?
      invariant programCorrectFlag == 1 <==> forall j :: 0 <= j < i ==> Bounds(methods[j], pts) == Verdict(true)
      invariant divisionByZeroFlag == 1 <==> forall j :: 0 <= j < i ==> DivSafe(methods[j])
    {
      var b := checker.VerifyBounds(methods[i], pts);
      if b.Crashed? {
        return None;
      }
      if !b.safe {
        programCorrectFlag := 0;
      }
      var d := VerifyDivisionByZero(methods[i]);
      if !d {
        divisionByZeroFlag := 0;
      }
    }
    var divLine := if divisionByZeroFlag == 1 then className + " NO_DIV_ZERO" else className + " MAY_DIV_ZERO";
    var boundsLine := if programCorrectFlag == 1 then className + " NO_OUT_OF_BOUNDS" else className + " MAY_OUT_OF_BOUNDS";
    return Some([divLine, boundsLine]);
  }
}

=== FILE: wrappers.dfy ===
/** Small failure-carrying wrappers shared by the other modules. */
module Wrappers {

  datatype Option<T> = None | Some(value: T)

  /** The outcome of a numeric-domain operation: a value, or the library's
      exception (an `ApronException` in the analyzer) raised when an
      operation names a variable outside the environment. */
  datatype Res<T> = Ok(value: T) | Fault
}
